=== FILE: README.md ===
# planning_agent core, in Dafny

This project models the single-attempt pipeline of the planning agent and the two three-card sum games in the same repository.

A run of the agent works as follows:

- The **coordinator** names a workspace after the task. It lists the workspace's files and snapshots the environment.
- The **planner** asks the language model once for a plan and pulls a JSON plan out of the answer. There are three stages in a fixed order of preference, and a one-step fallback.
- The **executor** interprets each step of the plan, in order, until the first step that does not succeed. The step kinds are a shell command, a file write and a file read. Each result has one of four statuses.
- The **reflector** turns a successful trace into a procedural rule. The **memory** store then appends the trace. Both lists of the store are rewritten to the memory file after every append.

The two card scripts are:

- `poker_sum.py`: cards are bare values, ace 11 and face cards 10. Hands are drawn with `random.sample`, and the remainder is built with `list.remove`.
- `simple_poker.py`: cards have a rank, a value and a suit, ace low. Hands are dealt by popping from the end of a shuffled deck.

## How the model is built

Each source file keeps its own form:

- The coordinator, memory store, reflector and executor update state in place. They are classes (`Coordinator`, `Memory`, `Reflector`, `FileSystem`) whose methods name what they modify.
- Each such method is proved against a specification function: `ExecuteFrom` for the step loop, `ListedFiles` for `_list_files` and `Execute` for `execute_step`. The properties the code promises are lemmas about those functions.
- The planner is pure string logic: functions and lemmas.
- The card scripts build their decks with loops, shuffle an array in place and pop from a list. These are methods with loop invariants, proved against the deck functions `OrderedDeck`, `StandardDeck` and `Shuffled`.

The outside world enters as parameters:

| outside input | how it is modelled |
|---|---|
| language model | a function `(prompt, system) -> answer` |
| `json.loads` | a partial function `string -> Option<Plan>` |
| clock | the timestamp string |
| OS, shell and tool probes | strings |
| `os.walk` | a list of (root, filenames) entries, or `None` for a missing directory |
| each step's subprocess or `open` | an outcome `StepIo`: for a command, how it ends and the files it leaves, given the files it finds |
| files under the workspace | a map from path to content |
| memory file | the last `Document` written |
| `random.shuffle` | its `randbelow` draws |
| `random.sample` | its result |

The modules are:

- `Wrappers`: Option and Result.
- `Text`: the Python string behaviour the code relies on.
- `Plans`: decoded JSON steps.
- `Executor`, `Planner`, `Memory`, `Reflector` and `Coordinator`.
- `CardGames`: the shuffle, sums and the winner decision shared by both games.
- `PokerSum` and `SimplePoker`.

Points of the code that shape the model:

- `run` makes one attempt: it plans once, executes that plan, reflects and records one trace (src/core/coordinator.py:35-62).
- `execute_step` knows three step kinds, `command`, `write_file` and `read_file`; any other type is `skipped` (src/core/executor.py:8-15).
- A command that times out is an `error`: `subprocess.run` raises `TimeoutExpired` and the `except Exception` handler turns it into an error result (src/core/executor.py:20-39).
- The fenced stage of the planner matches only when a closing fence follows the ```` ```json ```` opener; an opener without one falls through to the bracket stage (src/core/planner.py:35-43).
- A step missing a field it needs raises `KeyError` before the `try` (src/core/executor.py:18, 43-44, 56), which propagates out of `run`: that run reflects nothing and records no trace.

## Model

| member | source | states |
|---|---|---|
| Text.PathJoin | src/core/executor.py:45 | `os.path.join` on POSIX (`posixpath.join`): an absolute second part replaces the first; otherwise an empty or `/`-ended first part is simply followed by the second, and any other first part gets one `/` between the two |
| Text.Strip | src/core/planner.py:35 | the `\s*` around the fenced group: the result is never longer and neither starts nor ends with whitespace; `Text.TrimStart` and `Text.TrimEnd` state that only whitespace is dropped at each end |
| Text.TrimStart | src/core/planner.py:35 | drops exactly the leading whitespace (`str.isspace` characters) |
| Text.TrimEnd | src/core/planner.py:35 | drops exactly the trailing whitespace |
| Text.Repr | src/core/executor.py:63-64 | `repr` of a string, as in the `FileNotFoundError` text and the environment text of the prompt: a matching pair of quotes, double exactly when the string holds a `'` and no `"`; between them the string escaped character by character, which reads back as the string itself (`eval(repr(s)) == s`) |
| Text.EscapeAppend | src/core/executor.py:63-64 | escaping works character by character: the escape of a concatenation is the concatenation of the escapes |
| Text.UnescapeChar | src/core/executor.py:63-64 | each escape `repr` writes (`\\`, the quote, `\n`, `\r`, `\t`, `\xNN`, or the character itself) reads back as the one character it stands for |
| Text.UnescapeEscape | src/core/executor.py:63-64 | reading back the escaped body of a string literal quoted with `'` or `"` gives the string |
| Text.ReprPlain | src/core/executor.py:63-64 | a string of characters `repr` prints as they are is shown between single quotes, unchanged |
| Text.ReprHidden | src/core/executor.py:63-64 | a non-printable character below U+0100 is shown as `\x` and two lower-case hex digits |
| Text.Prefix | src/core/coordinator.py:96 | `files[:20]`: the whole list when it is short enough, else exactly the first 20 elements, always a prefix |
| Executor.CommandResult | src/core/executor.py:17-39 | success iff the command completed with return code 0, failure iff it completed with any other code, error iff `subprocess.run` raised (the 60 s timeout included); a completed command carries stdout, stderr and return code, a raised one the exception text |
| Executor.WriteEffect | src/core/executor.py:41-52 | success iff the file opened and the content is a string; then exactly that path is set to the content and the message is `File <filename> written.`; an open error changes nothing and reports the error text; non-string content leaves the file truncated and reports `write() argument must be str, not <type>` (`None` for null); every other path is untouched |
| Executor.ReadText | src/core/executor.py:60-61 | a text-mode read with universal newlines: no `\r` is left, nothing gets longer, and text without `\r` comes back unchanged; `Executor.ReadTextCrLf` and `Executor.ReadTextLoneCr` state the translation |
| Executor.ReadTextCrLf | src/core/executor.py:60-61 | the first `\r\n` in the text is read as one `\n`, and reading goes on after it |
| Executor.ReadTextLoneCr | src/core/executor.py:60-61 | the first `\r` that no `\n` follows is read as one `\n`, and reading goes on after it |
| Executor.ReadResult | src/core/executor.py:54-64 | success iff the path exists, with the file's content read in text mode; otherwise error with Python's `No such file or directory` message |
| Executor.Execute | src/core/executor.py:5-15 | skipped iff the type is none of the three kinds, with reason `unknown step type: <type>`; a `read_file` step or an unknown step leaves the files unchanged |
| Executor.CommandStatus | src/core/executor.py:8-9 | a command step leaves exactly the files the command left, and its status is decided by how the command ended alone |
| Executor.WriteThenRead | src/core/executor.py:41-64 | reading the file a successful write just wrote returns success with the written content, line endings read as `\n`; content without `\r` comes back exactly |
| Executor.WriteFile | src/core/executor.py:41-52 | updates the file system in place exactly as `WriteEffect` describes |
| Executor.ReadFile | src/core/executor.py:54-64 | success iff the joined path exists, with its content read in text mode; otherwise error; the file system is not modified |
| Executor.ExecuteStep | src/core/executor.py:5-15 | the result and the new file system are those of `Execute` on the old file system |
| Planner.Prompt | src/core/planner.py:21-25 | the prompt starts with `Task: <task>`, a blank line, `Environment: ` with the `str()` of the environment dictionary and a blank line; it ends with `Plan:`, and ends with the `Files: [...]` line plus `Plan:` when the context has files, or with the environment plus `Plan:` when it has none |
| Planner.SelectStage | src/core/planner.py:34-46 | a whole-answer stage carries the answer itself; when each stage is chosen is stated by `Planner.FencedStage`, `Planner.BracketStage` and `Planner.WholeStage` |
| Planner.FencedStage | src/core/planner.py:35-38 | the fenced stage is chosen iff some ```` ```json ```` opener has a closing fence after it; its text is what lies between the first opener and the first fence after it, stripped |
| Planner.BracketStage | src/core/planner.py:40-43 | without a fenced block, a `[` before a `]` selects the span from the first `[` to the last `]` |
| Planner.WholeStage | src/core/planner.py:45-46 | with neither a fenced block nor a bracket span, the whole answer is decoded |
| Planner.Fallback | src/core/planner.py:47-50 | one step with exactly the keys `type` and `command`: type `command`, command `echo 'Could not parse plan for: <task>'` |
| Planner.ExtractPlan | src/core/planner.py:29-50 | the decoding of the chosen stage when it decodes, else the fallback |
| Planner.FencedFailureFallsBack | src/core/planner.py:35-50 | a fenced block that does not decode gives the fallback; the bracket and whole-answer stages are not tried |
| Planner.CreatePlan | src/core/planner.py:10-50 | one model call with the prompt and the fixed system instruction; the result is the decoded chosen stage or the fallback, and nothing raises |
| Memory.Memory.constructor | src/core/memory.py:6-17 | no memory file gives two empty lists; a file's lists are loaded, a missing key giving an empty list |
| Memory.Memory.LoadMemory | src/core/memory.py:12-17 | replaces both lists with the file's (missing key: empty); no file: no change; loading what `save_memory` wrote restores both lists unchanged |
| Memory.Memory.SaveMemory | src/core/memory.py:19-25 | the file holds exactly both current lists; the lists are unchanged; one more write in the history |
| Memory.Memory.AddTrace | src/core/memory.py:27-29 | episodic grows by exactly the trace at the end, procedural unchanged, then both are saved |
| Memory.Memory.GetProceduralRules | src/core/memory.py:31-32 | returns the procedural list and changes nothing |
| Memory.Memory.UpdateProceduralMemory | src/core/memory.py:34-36 | procedural grows by exactly the rule at the end, episodic unchanged, then both are saved |
| Reflector.DerivedRules | src/core/reflector.py:12-16 | exactly one rule iff the status is `success`, and that rule is `{trigger: task, action: plan}` |
| Reflector.Reflector.Reflect | src/core/reflector.py:8-16 | episodic unchanged, procedural extended by exactly the derived rule at the end; a save iff the status is `success`, otherwise memory and file untouched |
| Coordinator.ReplaceNonAlnum | src/core/coordinator.py:78 | same length; ASCII letters and digits kept, every other character `_` |
| Coordinator.LowerAscii | src/core/coordinator.py:78 | same length, each ASCII upper-case letter lower-cased and every other character kept; on the ASCII slug it receives this is `str.lower` |
| Coordinator.Slug | src/core/coordinator.py:78 | as long as the task, at most 30; position by position an ASCII upper-case letter is lower-cased, an ASCII letter or digit kept, anything else `_`; only `[a-z0-9_]` |
| Coordinator.WorkspacePath | src/core/coordinator.py:72-80 | `projects/<timestamp>_<slug>` |
| Coordinator.JoinAll | src/core/coordinator.py:93-95 | one joined path per file name, in order |
| Coordinator.CollectedSound | src/core/coordinator.py:92-95 | every collected path joins a file name of a walked directory whose root does not contain `.git` |
| Coordinator.CollectedComplete | src/core/coordinator.py:92-95 | every file of every walked directory whose root does not contain `.git` is collected |
| Coordinator.ListedFiles | src/core/coordinator.py:87-96 | what `_list_files` returns: at most 20 names, none for a missing directory; its other properties are `Coordinator.ListedFromWalk`, `Coordinator.CollectedSound` and `Coordinator.CollectedComplete` |
| Coordinator.ListedFromWalk | src/core/coordinator.py:87-96 | a missing directory lists nothing; at most 20 paths; each from a root without `.git` |
| Coordinator.ListFiles | src/core/coordinator.py:87-96 | the nested loops return exactly the first 20 collected paths in walk order, or nothing for a missing directory |
| Coordinator.ExecuteFrom | src/core/coordinator.py:46-56 | the step loop as a function; its properties are the five lemmas below |
| Coordinator.ExecutedInPlanOrder | src/core/coordinator.py:47-52 | the recorded steps are a prefix of the plan, in plan order |
| Coordinator.StopsAtFirstFailure | src/core/coordinator.py:53-56 | every recorded step but the last succeeded; a run that stopped early ends with the step that did not succeed |
| Coordinator.SuccessRunsWholePlan | src/core/coordinator.py:46-58 | when every recorded step succeeded and nothing raised, the whole plan ran; a raise comes only after successes, before the end of the plan; an empty plan records nothing and does not raise |
| Coordinator.FilesFollowSteps | src/core/coordinator.py:47-56 | the files left are those the recorded steps leave when replayed in order; no later step touched them |
| Coordinator.ResultsFollowEarlierSteps | src/core/coordinator.py:47-52 | each recorded result is the executor's result for that step on the files the earlier steps left |
| Coordinator.TraceStatus | src/core/coordinator.py:58 | `success` iff every recorded step succeeded, else `failure` |
| Coordinator.LoopMatchesExecuteFrom | src/core/coordinator.py:46-56 | the loop written with its accumulator gives the same steps, files and raise as the specification function |
| Coordinator.ExecutePlan | src/core/coordinator.py:46-58 | the loop's steps, files and raise are those of `ExecuteFrom`; the success flag holds iff every recorded step succeeded |
| Coordinator.Coordinator.constructor | src/core/coordinator.py:9-15 | memory loaded from the memory file; the reflector shares that memory |
| Coordinator.Coordinator.Run | src/core/coordinator.py:17-64 | plans once, for the workspace's file listing; executes as `ExecuteFrom`; then the trace (task, plan, steps, workspace, status) is reflected and appended: procedural gains the derived rule first (none on failure), episodic gains exactly the trace; on success two saves (procedural, then episodic), otherwise one; a raise changes no memory |
| CardGames.Shuffled | poker_sum.py:17 | `random.shuffle` as a function of its draws; its properties are the four lemmas below |
| CardGames.ShufflePermutes | poker_sum.py:17 | shuffling keeps the multiset of elements |
| CardGames.ShuffleKeepsTail | poker_sum.py:17 | positions the shuffle pass has not yet reached keep their elements |
| CardGames.ShuffledLast | simple_poker.py:38 | the last card of a shuffled list is the one at the first drawn position |
| CardGames.ShuffleKeepsDistinct | simple_poker.py:38 | a list of distinct elements stays distinct when shuffled |
| CardGames.Shuffle | poker_sum.py:17 | `random.shuffle` in place: the array ends as `Shuffled` of its old contents |
| CardGames.SumOfThree | poker_sum.py:38-40 | the sum of three values is the three added |
| CardGames.SumBounds | poker_sum.py:38-40 | a sum of values in `[lo, hi]` lies between `n * lo` and `n * hi` |
| CardGames.Compare | poker_sum.py:75-80 | player wins iff its sum is strictly larger, the other side wins iff its sum is strictly larger, tie iff equal |
| PokerSum.Repeat | poker_sum.py:10 | `[value] * n`: n copies of the value |
| PokerSum.RepeatCounts | poker_sum.py:10 | `[value] * n` holds value n times and nothing else |
| PokerSum.FaceBlocksCounts | poker_sum.py:9-10 | the first loop builds `4 * 9` cards, four of each value 2..10 |
| PokerSum.OrderedDeckCounts | poker_sum.py:7-14 | 52 cards: four of each of 2..9, sixteen 10s, four 11s |
| PokerSum.FullDeckValues | poker_sum.py:4-5 | every card of such a deck lies in [2, 11] |
| PokerSum.DeckCounts | poker_sum.py:9-17 | the shuffled deck keeps those counts, so its values stay in [2, 11] |
| PokerSum.CreateDeck | poker_sum.py:3-18 | the loops build the ordered deck, and the result is that deck shuffled |
| PokerSum.FirstIndex | poker_sum.py:34 | the position of the first occurrence |
| PokerSum.RemoveFirst | poker_sum.py:34 | `list.remove`: one card fewer, exactly one copy of the value gone |
| PokerSum.RemoveEach | poker_sum.py:31-34 | the remainder is shorter than the deck by the number drawn and, with the drawn cards, makes up the deck's multiset |
| PokerSum.DrawHand | poker_sum.py:20-36 | `ValueError` (`Not enough cards in the deck.`) iff the deck is shorter than the hand; otherwise the sample and the deck with each drawn card's first occurrence removed, of the right sizes and conserving the multiset |
| PokerSum.Score | poker_sum.py:38-40 | the score of three cards is their three values added |
| PokerSum.ScoreOfDrawnHand | poker_sum.py:38-40 | a three-card hand drawn from the full deck scores 6..33 |
| PokerSum.CardLabel | poker_sum.py:44-45 | the label of one card; its properties are `PokerSum.CardLabels` |
| PokerSum.CardLabels | poker_sum.py:44-45 | `A` iff 11, `10/J/Q/K` iff 10, a single digit for 0..9 |
| PokerSum.Labels | poker_sum.py:45 | one label per card, in order |
| PokerSum.Decimals | poker_sum.py:46 | `str` of each value, in order |
| PokerSum.DisplayHand | poker_sum.py:42-46 | `display_hand`; its closed form for three cards is `PokerSum.DisplayThreeCards` |
| PokerSum.DisplayThreeCards | poker_sum.py:42-46 | the display of a three-card hand, label by label and value by value |
| PokerSum.PlayGame | poker_sum.py:48-80 | hands are the samples, scores their sums, each within 6..33, outcome by strict comparison; the error branch is unreachable |
| SimplePoker.RankValues | simple_poker.py:4-8 | every rank has a value, the r-th rank worth r + 1 |
| SimplePoker.StandardDeck | simple_poker.py:11-19 | 52 cards |
| SimplePoker.CardAt | simple_poker.py:13-18 | card `4r + s` is rank r, worth r + 1, suit s |
| SimplePoker.CreateDeck | simple_poker.py:11-19 | the nested loops build the deck rank by rank, suit by suit |
| SimplePoker.DeckLayout | simple_poker.py:11-19 | one card per (rank, suit) in rank-major order, each worth `CARD_VALUES` of its rank |
| SimplePoker.DeckDistinct | simple_poker.py:11-19 | no card occurs twice |
| SimplePoker.Values | simple_poker.py:23 | the card values, in order |
| SimplePoker.RowValues | simple_poker.py:14-18 | the four cards of a rank share its value |
| SimplePoker.ValueCountsUpTo | simple_poker.py:14-18 | the first r ranks hold four of each value 1..r and nothing else |
| SimplePoker.ValueCounts | simple_poker.py:11-19 | each value 1..13 occurs exactly four times, no other value occurs |
| SimplePoker.HandSum | simple_poker.py:21-23 | the sum of three cards is their three values added |
| SimplePoker.HandSumBounds | simple_poker.py:21-23 | a hand of cards worth 1..13 sums to between its size and 13 times its size |
| SimplePoker.FormatCard | simple_poker.py:25-27 | `format_card`; its properties are `SimplePoker.FormatDeckCard`, `SimplePoker.FormatCardParts` and `SimplePoker.DeckNamesDistinct` |
| SimplePoker.FormatCardParts | simple_poker.py:25-27 | two cards whose ranks hold no space and that differ in rank or suit are displayed differently |
| SimplePoker.DeckNamesDistinct | simple_poker.py:11-27 | the 52 cards of a new deck are displayed as 52 different strings |
| SimplePoker.FormatDeckCard | simple_poker.py:25-27 | a card reads `<rank> of <suit>` |
| SimplePoker.PopCards | simple_poker.py:41-42 | n pops take the last n cards, last first, and leave the deck without them |
| SimplePoker.Deal | simple_poker.py:41-42 | the player gets the last three cards, the opponent the three before them, the deck shrinks by six |
| SimplePoker.ShuffledDeck | simple_poker.py:37-38 | the shuffled deck still holds 52 distinct cards worth 1..13 |
| SimplePoker.DealtHands | simple_poker.py:41-46 | the two hands share no card, and each sums to 3..39 |
| SimplePoker.ShuffledNewDeck | simple_poker.py:37-38 | a new deck shuffled in place |
| SimplePoker.PlayGame | simple_poker.py:35-59 | hands from the shuffled deck's last six positions, disjoint, 46 cards left; sums in 3..39; outcome by strict comparison |

## Left out

- Console output: every `print` of the agent and of both games. This includes `display_hand` of `simple_poker.py`, which only prints. It is output, not state.
- The language model client: the model is a function argument. `src/utils/llm.py` is not part of this model.
- The OS, shell and tool probes are string arguments. `src/core/detector.py` is not part of this model.
- JSON: decoding is a partial function argument, and the text `json.dump` writes is not modelled (the memory file holds the document value). Nothing checks that a decoded plan is a list of step objects. The decoder's type is `Option<Plan>`, so the model cannot express a decoded JSON object, string, number or null; in the source each of those makes `run` raise. For example, a bare `{"type": ...}` answer decoded by the whole-answer stage makes `for step in plan` (src/core/coordinator.py:47) iterate over keys and then call `.get` on a string (src/core/executor.py:6).
- Creating directories (`os.makedirs` of `projects` and of the workspace) is not modelled. The file map has no directories, and `WorkspacePath` gives the path that is created.
- Running commands: shell semantics, process output, the 60-second timeout and what a command does to the files are the step's `StepIo` oracle, which gets the files the command finds and gives how it ended and the files it leaves.
- Paths and newlines are POSIX: `os.path.join` is `posixpath.join`, and a text-mode write stores `\n` as it is. On Windows, `ntpath.join` and the `\r\n` a text-mode write produces are not modelled.
- Text.Repr: characters above U+00FF are shown as they are, and `Text.Unescape` reads back only the escapes `repr` writes, not every escape of Python's string literals. CPython escapes the non-printable ones among them (separators such as U+2028, format characters, unassigned code points) as `\u` or `\U` escapes; its table of printable characters is not modelled.
- Text-mode reads and writes encode and decode with the locale's encoding. The file map holds text, so an encoding error on writing or reading is not modelled.
- Executor.Execute: the file map is keyed by the joined path as a string. There is no `.`, `..` or `//` normalisation and there are no symlinks, so one file reached by two spellings (`a.txt` and `./a.txt`) is two files in the model, and reading it by the other spelling fails with `No such file or directory`.
- Executor.Execute: only `open` for writing can fail in the model. A read fails only when the path is missing; permission errors and the like on reading are not modelled.
- The prompt's string conversion covers the environment dictionary as the coordinator builds it, with string values only.
- The planner's search for the fenced block is modelled as the first opener followed by the first fence and whitespace stripping. It is not a general regular-expression engine.
- Randomness: the `randbelow` draws of `random.shuffle` and the result of `random.sample` are arguments. They are required to be draws Python can make: each draw is within range, and a sample is a sub-multiset of the deck of the right size.
- The decks and hands are modelled as sequence values; only the in-place shuffle works on an array. No list in either script is shared, so there is no aliasing to lose.
- SimplePoker.PopCards: requires at least `n` cards. `pop` on an empty list would raise `IndexError`, which cannot happen with a 52-card deck.
- The `if __name__ == "__main__"` entry points and `src/main.py`: command-line plumbing.

=== FILE: cardgames.dfy ===
/**
 * What the two card scripts share: `random.shuffle` (CPython's Fisher-Yates
 * pass, with the random draws given as input), the sum of a hand and the
 * three-way comparison of two sums.
 */
module CardGames {

  /** `s` with the elements at `i` and `j` exchanged. */
  function Swap<T>(s: seq<T>, i: nat, j: nat): (r: seq<T>)
    requires i < |s| && j < |s|
    ensures |r| == |s| && r[i] == s[j] && r[j] == s[i]
    ensures forall k :: 0 <= k < |s| && k != i && k != j ==> r[k] == s[k]
  {
    s[i := s[j]][j := s[i]]
  }

  lemma SwapPermutes<T>(s: seq<T>, i: nat, j: nat)
    requires i < |s| && j < |s|
    ensures multiset(Swap(s, i, j)) == multiset(s)
  {
  }

  /**
   * The draws of one `random.shuffle` of an `n`-element list: `picks[i]` is
   * the `randbelow(i + 1)` drawn when the pass stands at position `i`
   * (`picks[0]` is never used and is 0).
   */
  predicate ValidPicks(picks: seq<nat>, n: nat) {
    |picks| == n && forall i :: 0 <= i < n ==> picks[i] <= i
  }

  /** Positions `i - 1` down to 1 each exchanged with the position drawn for it, in that order. */
  function ShuffleDown<T>(s: seq<T>, picks: seq<nat>, i: nat): (r: seq<T>)
    requires ValidPicks(picks, |s|) && i <= |s|
    ensures |r| == |s|
    decreases i
  {
    if i <= 1 then s else ShuffleDown(Swap(s, i - 1, picks[i - 1]), picks, i - 1)
  }

  /** `random.shuffle(s)`: from the last position down to position 1. */
  function Shuffled<T>(s: seq<T>, picks: seq<nat>): seq<T>
    requires ValidPicks(picks, |s|)
  {
    ShuffleDown(s, picks, |s|)
  }

  /** Shuffling only reorders: the multiset of elements is unchanged. */
  lemma {:induction false} ShufflePermutes<T>(s: seq<T>, picks: seq<nat>, i: nat)
    requires ValidPicks(picks, |s|) && i <= |s|
    ensures multiset(ShuffleDown(s, picks, i)) == multiset(s)
    decreases i
  {
    if i > 1 {
      SwapPermutes(s, i - 1, picks[i - 1]);
      ShufflePermutes(Swap(s, i - 1, picks[i - 1]), picks, i - 1);
    }
  }

  /** Positions the pass has not reached yet are left alone. */
  lemma {:induction false} ShuffleKeepsTail<T>(s: seq<T>, picks: seq<nat>, i: nat)
    requires ValidPicks(picks, |s|) && i <= |s|
    ensures forall k :: i <= k < |s| ==> ShuffleDown(s, picks, i)[k] == s[k]
    decreases i
  {
    if i > 1 {
      ShuffleKeepsTail(Swap(s, i - 1, picks[i - 1]), picks, i - 1);
    }
  }

  /**
   * The last element of a shuffled list is the element at the position drawn
   * first, and no later swap moves it again.
   */
  lemma ShuffledLast<T>(s: seq<T>, picks: seq<nat>)
    requires ValidPicks(picks, |s|) && |s| >= 2
    ensures Shuffled(s, picks)[|s| - 1] == s[picks[|s| - 1]]
  {
    var n := |s|;
    ShuffleKeepsTail(Swap(s, n - 1, picks[n - 1]), picks, n - 1);
  }

  predicate Distinct<T(==)>(s: seq<T>) {
    forall i, j :: 0 <= i < j < |s| ==> s[i] != s[j]
  }

  /** A list of distinct elements stays one when shuffled. */
  lemma {:induction false} ShuffleKeepsDistinct<T>(s: seq<T>, picks: seq<nat>, i: nat)
    requires ValidPicks(picks, |s|) && i <= |s| && Distinct(s)
    ensures Distinct(ShuffleDown(s, picks, i))
    decreases i
  {
    if i > 1 {
      var t := Swap(s, i - 1, picks[i - 1]);
      forall a, b | 0 <= a < b < |t|
        ensures t[a] != t[b]
      {
        var a' := if a == i - 1 then picks[i - 1] else if a == picks[i - 1] then i - 1 else a;
        var b' := if b == i - 1 then picks[i - 1] else if b == picks[i - 1] then i - 1 else b;
        assert t[a] == s[a'] && t[b] == s[b'] && a' != b';
      }
      ShuffleKeepsDistinct(t, picks, i - 1);
    }
  }

  /** `random.shuffle(a)`, in place. */
  method Shuffle<T>(a: array<T>, picks: seq<nat>)
    requires ValidPicks(picks, a.Length)
    modifies a
    ensures a[..] == Shuffled(old(a[..]), picks)
  {
    var i: nat := a.Length;
    while i > 1
      invariant i <= a.Length
      invariant ShuffleDown(a[..], picks, i) == Shuffled(old(a[..]), picks)
    {
      var j := picks[i - 1];
      ghost var before := a[..];
      a[i - 1], a[j] := a[j], a[i - 1];
      assert a[..] == Swap(before, i - 1, j);
      i := i - 1;
    }
  }

  /** `sum(values)`. */
  function Sum(values: seq<int>): int {
    if |values| == 0 then 0 else Sum(values[..|values| - 1]) + values[|values| - 1]
  }

  /** The sum of three values is the three added. */
  lemma SumOfThree(values: seq<int>)
    ensures |values| == 3 ==> Sum(values) == values[0] + values[1] + values[2]
  {
    if |values| == 3 {
      assert values[..2][..1] == values[..1] && values[..1][..0] == [];
      assert Sum(values[..1]) == values[0];
      assert Sum(values[..2]) == values[0] + values[1];
    }
  }

  /** A sum of values that all lie in `[lo, hi]` lies between `|values| * lo` and `|values| * hi`. */
  lemma {:induction false} SumBounds(values: seq<int>, lo: int, hi: int)
    requires forall k :: 0 <= k < |values| ==> lo <= values[k] <= hi
    ensures |values| * lo <= Sum(values) <= |values| * hi
  {
    if |values| > 0 {
      var n := |values|;
      SumBounds(values[..n - 1], lo, hi);
      assert (n - 1) * lo + lo == n * lo && (n - 1) * hi + hi == n * hi;
    }
  }

  /** Who wins a round: the player, the other side, or nobody. */
  datatype Outcome = PlayerWins | OtherWins | Tie

  /** The result block of `play_game`: the strictly larger sum wins, equal sums tie. */
  function Compare(player: int, other: int): (o: Outcome)
    ensures o == PlayerWins <==> player > other
    ensures o == OtherWins <==> other > player
    ensures o == Tie <==> player == other
  {
    if player > other then PlayerWins
    else if other > player then OtherWins
    else Tie
  }
}

=== FILE: coordinator.dfy ===
/**
 * The coordinator: one run of a task. It names a workspace, snapshots the
 * environment, asks the planner for a plan, executes the plan step by step
 * until the first step that does not succeed, lets the reflector learn from
 * the trace and appends the trace to memory.
 *
 * The clock, the environment probes (OS, shell, tools), the directory walk,
 * the language model, the JSON decoder and the operating system's answers to
 * each step are inputs of the run.
 */
module Coordinator {
  import opened Wrappers
  import opened Text
  import opened Plans
  import opened Executor
  import opened Planner
  import opened Memory
  import opened Reflector

  // ---------------------------------------------------------------------
  // Workspace naming

  predicate IsAsciiAlnum(c: char) {
    ('a' <= c <= 'z') || ('A' <= c <= 'Z') || ('0' <= c <= '9')
  }

  function AsciiLower(c: char): char {
    if 'A' <= c <= 'Z' then (c as int - 'A' as int + 'a' as int) as char else c
  }

  /** `re.sub(r'[^a-zA-Z0-9]', '_', s)`. */
  function ReplaceNonAlnum(s: string): (r: string)
    ensures |r| == |s|
    ensures forall k :: 0 <= k < |s| ==> r[k] == if IsAsciiAlnum(s[k]) then s[k] else '_'
  {
    if |s| == 0 then "" else ReplaceNonAlnum(s[..|s| - 1]) + [if IsAsciiAlnum(s[|s| - 1]) then s[|s| - 1] else '_']
  }

  /** `s.lower()` on a string that holds only ASCII letters, digits and '_'. */
  function LowerAscii(s: string): (r: string)
    ensures |r| == |s|
    ensures forall k :: 0 <= k < |s| ==> r[k] == AsciiLower(s[k])
  {
    if |s| == 0 then "" else LowerAscii(s[..|s| - 1]) + [AsciiLower(s[|s| - 1])]
  }

  /** The characters a slug is made of. */
  predicate IsSlugChar(c: char) {
    ('a' <= c <= 'z') || ('0' <= c <= '9') || c == '_'
  }

  /**
   * The slug of `_create_workspace`: the first 30 characters of the task,
   * each ASCII letter lower-cased, each ASCII digit kept and every other
   * character turned into '_'.
   */
  function Slug(task: string): (slug: string)
    ensures |slug| == if |task| < 30 then |task| else 30
    ensures forall k :: 0 <= k < |slug| ==>
              slug[k] == (if 'A' <= task[k] <= 'Z' then (task[k] as int + 32) as char
                          else if IsAsciiAlnum(task[k]) then task[k]
                          else '_')
    ensures forall k :: 0 <= k < |slug| ==> IsSlugChar(slug[k])
  {
    LowerAscii(ReplaceNonAlnum(Prefix(task, 30)))
  }

  /** `projects/<timestamp>_<slug>`; the timestamp is the `%Y%m%d_%H%M%S` text of the clock. */
  function WorkspacePath(timestamp: string, task: string): (path: string)
    ensures |timestamp| == 0 || timestamp[0] != '/' ==> path == "projects/" + timestamp + "_" + Slug(task)
  {
    PathJoin("projects", timestamp + "_" + Slug(task))
  }

  // ---------------------------------------------------------------------
  // Listing the workspace

  /** One triple of `os.walk`: a directory and the names of the files directly in it. */
  datatype WalkEntry = WalkEntry(root: string, filenames: seq<string>)

  /** `join(root, name)` for each name, in order. */
  function JoinAll(root: string, names: seq<string>): (paths: seq<string>)
    ensures |paths| == |names|
    ensures forall k :: 0 <= k < |names| ==> paths[k] == PathJoin(root, names[k])
  {
    if |names| == 0 then [] else JoinAll(root, names[..|names| - 1]) + [PathJoin(root, names[|names| - 1])]
  }

  /** The paths one walk entry contributes: none when its root contains ".git". */
  function EntryPaths(e: WalkEntry): seq<string> {
    if Contains(e.root, ".git") then [] else JoinAll(e.root, e.filenames)
  }

  /** Every path the nested loops of `_list_files` append, in walk order. */
  function Collected(walk: seq<WalkEntry>): seq<string> {
    if |walk| == 0 then [] else Collected(walk[..|walk| - 1]) + EntryPaths(walk[|walk| - 1])
  }

  /** `path` joins a file name of some walked directory whose root does not contain ".git". */
  ghost predicate FromWalk(walk: seq<WalkEntry>, path: string) {
    exists k, name :: 0 <= k < |walk| && name in walk[k].filenames
                      && !Contains(walk[k].root, ".git") && path == PathJoin(walk[k].root, name)
  }

  /** Every collected path joins a file name to a root without ".git". */
  lemma {:induction false} CollectedSound(walk: seq<WalkEntry>, path: string)
    requires path in Collected(walk)
    ensures FromWalk(walk, path)
  {
    var init, last := walk[..|walk| - 1], walk[|walk| - 1];
    if path in EntryPaths(last) {
      var j :| 0 <= j < |last.filenames| && EntryPaths(last)[j] == path;
      assert walk[|walk| - 1].filenames[j] in walk[|walk| - 1].filenames;
    } else {
      CollectedSound(init, path);
      var k, name :| 0 <= k < |init| && name in init[k].filenames
                     && !Contains(init[k].root, ".git") && path == PathJoin(init[k].root, name);
      assert walk[k] == init[k];
    }
  }

  /** Every file of every walked directory whose root does not contain ".git" is collected. */
  lemma {:induction false} CollectedComplete(walk: seq<WalkEntry>, k: nat, name: string)
    requires k < |walk| && name in walk[k].filenames && !Contains(walk[k].root, ".git")
    ensures PathJoin(walk[k].root, name) in Collected(walk)
  {
    var init, last := walk[..|walk| - 1], walk[|walk| - 1];
    if k == |walk| - 1 {
      var j :| 0 <= j < |last.filenames| && last.filenames[j] == name;
      assert EntryPaths(last)[j] == PathJoin(walk[k].root, name);
    } else {
      assert init[k] == walk[k];
      CollectedComplete(init, k, name);
    }
  }

  /** What `_list_files` returns: nothing for a missing directory, else the first 20 collected paths. */
  function ListedFiles(walk: Option<seq<WalkEntry>>): (files: seq<string>)
    ensures |files| <= 20
    ensures walk.None? ==> files == []
  {
    if walk.None? then [] else Prefix(Collected(walk.value), 20)
  }

  /**
   * A missing directory lists nothing; otherwise at most 20 paths are
   * listed, each from a walked directory whose root does not contain ".git".
   */
  lemma ListedFromWalk(walk: Option<seq<WalkEntry>>)
    ensures walk.None? ==> ListedFiles(walk) == []
    ensures |ListedFiles(walk)| <= 20
    ensures walk.Some? ==> forall path :: path in ListedFiles(walk) ==> FromWalk(walk.value, path)
  {
    if walk.Some? {
      forall path | path in ListedFiles(walk)
        ensures FromWalk(walk.value, path)
      {
        CollectedSound(walk.value, path);
      }
    }
  }

  lemma CollectedStep(walk: seq<WalkEntry>, i: nat)
    requires i < |walk|
    ensures Collected(walk[..i + 1]) == Collected(walk[..i]) + EntryPaths(walk[i])
  {
    assert walk[..i + 1][..i] == walk[..i];
  }

  lemma JoinAllStep(root: string, names: seq<string>, j: nat)
    requires j < |names|
    ensures JoinAll(root, names[..j + 1]) == JoinAll(root, names[..j]) + [PathJoin(root, names[j])]
  {
    assert names[..j + 1][..j] == names[..j];
  }

  /**
   * `_list_files`: `walk` is `None` when the directory does not exist, else
   * what `os.walk` yields.
   */
  method ListFiles(walk: Option<seq<WalkEntry>>) returns (files: seq<string>)
    ensures files == ListedFiles(walk)
  {
    if walk.None? {
      return [];
    }
    var entries := walk.value;
    var all: seq<string> := [];
    var i := 0;
    while i < |entries|
      invariant 0 <= i <= |entries|
      invariant all == Collected(entries[..i])
    {
      var root, filenames := entries[i].root, entries[i].filenames;
      ghost var before := all;
      var j := 0;
      while j < |filenames|
        invariant 0 <= j <= |filenames|
        invariant all == before + (if Contains(root, ".git") then [] else JoinAll(root, filenames[..j]))
      {
        if !Contains(root, ".git") {
          JoinAllStep(root, filenames, j);
          all := all + [PathJoin(root, filenames[j])];
        }
        j := j + 1;
      }
      assert filenames[..j] == filenames;
      CollectedStep(entries, i);
      i := i + 1;
    }
    assert entries[..i] == entries;
    files := Prefix(all, 20);
  }

  // ---------------------------------------------------------------------
  // Executing a plan

  /**
   * What executing plan step `k` does to a file map: its result and the
   * file map it leaves, or `None` where `execute_step` raises.
   */
  type StepRunner = (map<string, string>, nat) -> Option<Effect>

  /** The step runner of the executor: plan step `k` meets the operating system as `io(k)`. */
  function Runner(plan: Plan, cwd: string, io: nat -> StepIo): (run: StepRunner)
    ensures forall files, k: nat :: k < |plan| ==> (run(files, k).None? <==> !WellFormed(plan[k]))
    ensures forall files, k: nat :: k < |plan| && WellFormed(plan[k]) ==> run(files, k) == Some(Execute(files, plan[k], cwd, io(k)))
  {
    (files: map<string, string>, k: nat) =>
      if k < |plan| && WellFormed(plan[k]) then Some(Execute(files, plan[k], cwd, io(k))) else None
  }

  /** The steps recorded, the file map left behind, and whether a malformed step raised out of the run. */
  datatype Execution = Execution(steps: seq<Entry>, files: map<string, string>, raised: bool)

  predicate AllSucceeded(steps: seq<Entry>) {
    forall j :: 0 <= j < |steps| ==> steps[j].result.status == Success
  }

  /** `[entry] + rest` all succeeded exactly when `entry` and all of `rest` did. */
  lemma AllSucceededPrepend(entry: Entry, rest: seq<Entry>)
    ensures AllSucceeded([entry] + rest) <==> entry.result.status == Success && AllSucceeded(rest)
  {
    var s := [entry] + rest;
    if entry.result.status == Success && AllSucceeded(rest) {
      forall j | 0 <= j < |s|
        ensures s[j].result.status == Success
      {
        if j > 0 { assert s[j] == rest[j - 1]; }
      }
    }
    if AllSucceeded(s) {
      assert s[0] == entry;
      forall j | 0 <= j < |rest|
        ensures rest[j].result.status == Success
      {
        assert rest[j] == s[j + 1];
      }
    }
  }

  /**
   * The loop of `run` from plan index `k` on: record each step with its
   * result and stop after the first result that is not a success.
   */
  function ExecuteFrom(files: map<string, string>, plan: Plan, run: StepRunner, k: nat): Execution
    requires k <= |plan|
    decreases |plan| - k
  {
    if k == |plan| then Execution([], files, false)
    else match run(files, k)
      case None => Execution([], files, true)
      case Some(e) =>
        var entry := Entry(plan[k], e.result);
        if e.result.status != Success then Execution([entry], e.files, false)
        else
          var rest := ExecuteFrom(e.files, plan, run, k + 1);
          Execution([entry] + rest.steps, rest.files, rest.raised)
  }

  /** The recorded steps are the plan's steps from `k` on, in plan order. */
  lemma {:induction false} ExecutedInPlanOrder(files: map<string, string>, plan: Plan, run: StepRunner, k: nat)
    requires k <= |plan|
    decreases |plan| - k
    ensures var x := ExecuteFrom(files, plan, run, k);
            && k + |x.steps| <= |plan|
            && forall j :: 0 <= j < |x.steps| ==> x.steps[j].step == plan[k + j]
  {
    if k < |plan| && run(files, k).Some? {
      var e := run(files, k).value;
      if e.result.status == Success {
        ExecutedInPlanOrder(e.files, plan, run, k + 1);
        var rest := ExecuteFrom(e.files, plan, run, k + 1);
        var x := ExecuteFrom(files, plan, run, k);
        assert x.steps == [Entry(plan[k], e.result)] + rest.steps;
        forall j | 0 < j < |x.steps|
          ensures x.steps[j].step == plan[k + j]
        {
          assert x.steps[j] == rest.steps[j - 1];
        }
      }
    }
  }

  /**
   * Every recorded step but the last succeeded; when the run neither raised
   * nor reached the end of the plan, the last recorded step is the one that
   * did not succeed.
   */
  lemma {:induction false} StopsAtFirstFailure(files: map<string, string>, plan: Plan, run: StepRunner, k: nat)
    requires k <= |plan|
    decreases |plan| - k
    ensures var x := ExecuteFrom(files, plan, run, k);
            forall j :: 0 <= j < |x.steps| - 1 ==> x.steps[j].result.status == Success
    ensures var x := ExecuteFrom(files, plan, run, k);
            !x.raised && |x.steps| < |plan| - k ==> |x.steps| > 0 && x.steps[|x.steps| - 1].result.status != Success
  {
    if k < |plan| && run(files, k).Some? {
      var e := run(files, k).value;
      if e.result.status == Success {
        StopsAtFirstFailure(e.files, plan, run, k + 1);
        var rest := ExecuteFrom(e.files, plan, run, k + 1);
        var x := ExecuteFrom(files, plan, run, k);
        assert x.steps == [Entry(plan[k], e.result)] + rest.steps;
        forall j | 0 < j < |x.steps| - 1
          ensures x.steps[j].result.status == Success
        {
          assert x.steps[j] == rest.steps[j - 1];
        }
        if !x.raised && |x.steps| < |plan| - k {
          assert x.steps[|x.steps| - 1] == rest.steps[|rest.steps| - 1];
        }
      }
    }
  }

  /**
   * When every recorded step succeeded and nothing raised, the whole rest of
   * the plan ran; a raise happens only at a step the runner rejects, after
   * successes. An empty rest of the plan records nothing and succeeds.
   */
  lemma {:induction false} SuccessRunsWholePlan(files: map<string, string>, plan: Plan, run: StepRunner, k: nat)
    requires k <= |plan|
    decreases |plan| - k
    ensures var x := ExecuteFrom(files, plan, run, k);
            !x.raised && AllSucceeded(x.steps) ==> |x.steps| == |plan| - k
    ensures var x := ExecuteFrom(files, plan, run, k);
            x.raised ==> AllSucceeded(x.steps) && k + |x.steps| < |plan|
    ensures k == |plan| ==> ExecuteFrom(files, plan, run, k) == Execution([], files, false)
  {
    var x := ExecuteFrom(files, plan, run, k);
    if k < |plan| && run(files, k).Some? {
      var e := run(files, k).value;
      if e.result.status == Success {
        SuccessRunsWholePlan(e.files, plan, run, k + 1);
        var rest := ExecuteFrom(e.files, plan, run, k + 1);
        AllSucceededPrepend(Entry(plan[k], e.result), rest.steps);
      } else {
        assert x.steps[0].result.status != Success;
      }
    }
  }

  /** The file map after running steps `k` to `j - 1` one after another, whatever their statuses. */
  function FilesAfter(files: map<string, string>, run: StepRunner, k: nat, j: nat): map<string, string>
    requires k <= j
    decreases j - k
  {
    if k == j then files
    else match run(files, k)
      case None => files
      case Some(e) => FilesAfter(e.files, run, k + 1, j)
  }

  /** The run leaves the file map its recorded steps, replayed in order, leave. */
  lemma {:induction false} FilesFollowSteps(files: map<string, string>, plan: Plan, run: StepRunner, k: nat)
    requires k <= |plan|
    decreases |plan| - k
    ensures var x := ExecuteFrom(files, plan, run, k);
            x.files == FilesAfter(files, run, k, k + |x.steps|)
  {
    if k < |plan| && run(files, k).Some? {
      var e := run(files, k).value;
      if e.result.status == Success {
        FilesFollowSteps(e.files, plan, run, k + 1);
      }
    }
  }

  /**
   * Each recorded result is what the runner gives for its step on the file
   * map the earlier recorded steps left.
   */
  lemma {:induction false} ResultsFollowEarlierSteps(files: map<string, string>, plan: Plan, run: StepRunner, k: nat, j: nat)
    requires k <= |plan|
    requires j < |ExecuteFrom(files, plan, run, k).steps|
    decreases j
    ensures run(FilesAfter(files, run, k, k + j), k + j).Some?
    ensures ExecuteFrom(files, plan, run, k).steps[j].result == run(FilesAfter(files, run, k, k + j), k + j).value.result
  {
    var e := run(files, k).value;
    if j > 0 {
      var rest := ExecuteFrom(e.files, plan, run, k + 1);
      assert ExecuteFrom(files, plan, run, k).steps[j] == rest.steps[j - 1];
      ResultsFollowEarlierSteps(e.files, plan, run, k + 1, j - 1);
    }
  }

  /** The status `run` gives its trace. */
  function TraceStatus(steps: seq<Entry>): (status: string)
    ensures status == "success" <==> AllSucceeded(steps)
    ensures status == "success" || status == "failure"
  {
    if AllSucceeded(steps) then "success" else "failure"
  }

  /** The plan a run executes: planned from the task and the environment snapshot. */
  function PlanFor(task: string, timestamp: string, os: string, shell: string, tools: seq<(string, string)>,
                   walk: Option<seq<WalkEntry>>, llm: (string, string) -> string, decode: string -> Option<Plan>): Plan
  {
    var workspace := WorkspacePath(timestamp, task);
    CreatePlan(task, EnvInfo(os, shell, tools, Some(ListedFiles(walk)), workspace), llm, decode)
  }

  /**
   * The loop of `run` resumed at plan index `k` with the entries `done`
   * already recorded: the run of `ExecuteFrom`, written the way the loop
   * goes.
   */
  function LoopFrom(files: map<string, string>, plan: Plan, run: StepRunner, k: nat, done: seq<Entry>): Execution
    requires k <= |plan|
    decreases |plan| - k
  {
    if k == |plan| then Execution(done, files, false)
    else match run(files, k)
      case None => Execution(done, files, true)
      case Some(e) =>
        var entry := Entry(plan[k], e.result);
        if e.result.status != Success then Execution(done + [entry], e.files, false)
        else LoopFrom(e.files, plan, run, k + 1, done + [entry])
  }

  /** Resuming the loop after `done` gives `done` followed by what `ExecuteFrom` records. */
  lemma {:induction false} LoopMatchesExecuteFrom(files: map<string, string>, plan: Plan, run: StepRunner, k: nat, done: seq<Entry>)
    requires k <= |plan|
    decreases |plan| - k
    ensures var x := ExecuteFrom(files, plan, run, k);
            LoopFrom(files, plan, run, k, done) == Execution(done + x.steps, x.files, x.raised)
  {
    if k == |plan| || run(files, k).None? {
      assert done + [] == done;
    } else {
      var e := run(files, k).value;
      var entry := Entry(plan[k], e.result);
      if e.result.status == Success {
        LoopMatchesExecuteFrom(e.files, plan, run, k + 1, done + [entry]);
        var rest := ExecuteFrom(e.files, plan, run, k + 1);
        assert (done + [entry]) + rest.steps == done + ([entry] + rest.steps);
      }
    }
  }

  /**
   * The step loop of `run`: execute each step in plan order, record it with
   * its result, and stop after the first result that is not a success.
   * `raised` is set when a malformed step raises out of the loop.
   */
  method ExecutePlan(fs: FileSystem, plan: Plan, cwd: string, io: nat -> StepIo)
    returns (steps: seq<Entry>, success: bool, raised: bool)
    modifies fs
    ensures Execution(steps, fs.files, raised) == ExecuteFrom(old(fs.files), plan, Runner(plan, cwd, io), 0)
    ensures !raised ==> (success <==> AllSucceeded(steps))
  {
    ghost var run := Runner(plan, cwd, io);
    ghost var x := LoopFrom(fs.files, plan, run, 0, []);
    assert x == ExecuteFrom(old(fs.files), plan, run, 0) by {
      LoopMatchesExecuteFrom(fs.files, plan, run, 0, []);
    }
    steps := [];
    success := true;
    var i := 0;
    while i < |plan|
      invariant 0 <= i <= |plan|
      invariant AllSucceeded(steps)
      invariant LoopFrom(fs.files, plan, run, i, steps) == x
      modifies fs
    {
      var step := plan[i];
      if !WellFormed(step) {
        return steps, success, true;
      }
      ghost var before := fs.files;
      var result := ExecuteStep(fs, step, cwd, io(i));
      assert run(before, i) == Some(Effect(result, fs.files));
      steps := steps + [Entry(step, result)];
      if result.status != Success {
        assert steps[|steps| - 1].result.status != Success;
        return steps, false, false;
      }
      i := i + 1;
    }
    raised := false;
  }

  /**
   * Memory after recording `trace` on top of the given lists and write
   * history: the reflector's rule (if any) is appended and saved first, then
   * the trace is appended and saved.
   */
  ghost predicate Recorded(m: Memory, trace: Trace, episodic: seq<Trace>, procedural: seq<Rule>, writes: seq<Document>)
    reads m
  {
    && m.episodic == episodic + [trace]
    && m.procedural == procedural + DerivedRules(trace)
    && m.stored == Some(Snapshot(m.episodic, m.procedural))
    && m.writes == writes
                   + (if trace.status == "success" then [Snapshot(episodic, m.procedural)] else [])
                   + [Snapshot(m.episodic, m.procedural)]
  }

  class Coordinator {
    const memory: Memory
    const reflector: Reflector
    const fs: FileSystem

    ghost predicate Valid()
      reads this
    {
      reflector.memory == memory
    }

    /** `Coordinator()`: memory loaded from the memory file, a reflector sharing that memory. */
    constructor (file: Option<Document>, files: map<string, string>)
      ensures Valid() && fresh(memory) && fresh(fs)
      ensures memory.stored == file && memory.writes == []
      ensures file.None? ==> memory.episodic == [] && memory.procedural == []
      ensures file.Some? ==> memory.episodic == file.value.episodic.GetOr([]) && memory.procedural == file.value.procedural.GetOr([])
      ensures fs.files == files
    {
      var m := new Memory(file);
      memory := m;
      reflector := new Reflector(m);
      fs := new FileSystem(files);
    }

    /**
     * `run`: plan once, execute the plan in order up to the first step that
     * does not succeed, reflect on the trace, then append it to memory.
     * `raised` is set when a malformed step raised out of the run, which then
     * neither reflects nor records anything.
     */
    method Run(task: string, timestamp: string, os: string, shell: string, tools: seq<(string, string)>,
               walk: Option<seq<WalkEntry>>, llm: (string, string) -> string, decode: string -> Option<Plan>,
               io: nat -> StepIo)
      returns (raised: bool)
      requires Valid()
      modifies memory, fs
      ensures Valid()
      ensures var workspace := WorkspacePath(timestamp, task);
              var plan := PlanFor(task, timestamp, os, shell, tools, walk, llm, decode);
              var x := ExecuteFrom(old(fs.files), plan, Runner(plan, workspace, io), 0);
              && raised == x.raised
              && fs.files == x.files
              && (raised ==> unchanged(memory))
              && (!raised ==>
                    Recorded(memory, Trace(task, plan, x.steps, workspace, TraceStatus(x.steps)),
                             old(memory.episodic), old(memory.procedural), old(memory.writes)))
    {
      var workspace := WorkspacePath(timestamp, task);
      var listed := ListFiles(walk);
      var env := EnvInfo(os, shell, tools, Some(listed), workspace);
      var plan := CreatePlan(task, env, llm, decode);

      var steps, success, failed := ExecutePlan(fs, plan, workspace, io);
      if failed {
        return true;
      }
      var trace := Trace(task, plan, steps, workspace, if success then "success" else "failure");
      reflector.Reflect(trace);
      memory.AddTrace(trace);
      raised := false;
    }
  }
}

=== FILE: executor.dfy ===
/**
 * The step interpreter: one step of a plan becomes a shell command, a file
 * write or a file read in the working directory, and every outcome is
 * reported with one of four statuses.
 *
 * The operating system is abstract. What a shell command does (how it ends
 * and the files it leaves behind) and whether the OS lets a file be opened
 * for writing are oracles (`StepIo`); the files under the working directory
 * are a map from path to content, held by a `FileSystem` object that
 * `command` and `write_file` steps update in place.
 */
module Executor {
  import opened Wrappers
  import opened Text
  import opened Plans

  datatype Status = Success | Failure | Error | Skipped

  /** The kind-specific fields of a result dictionary besides `"status"`. */
  datatype Payload =
    | Output(stdout: string, stderr: string, returncode: int)
    | ErrorText(error: string)
    | Message(message: string)
    | Content(content: string)
    | Reason(reason: string)

  datatype StepResult = StepResult(status: Status, payload: Payload)

  /** What `subprocess.run` did: it returned, or it raised (a launch failure, the 60 second timeout, ...). */
  datatype CommandOutcome =
    | Completed(returncode: int, stdout: string, stderr: string)
    | Raised(message: string)

  /**
   * What a shell command did, run on the files it found: how it ended, and
   * the files it left (a command that raised, say on the timeout, may already
   * have changed some).
   */
  datatype CommandRun = CommandRun(outcome: CommandOutcome, files: map<string, string>)

  /**
   * What the operating system does for one step: what the shell does with the
   * command on the files it finds, and the text of the error
   * `open(path, "w")` raises, if any.
   */
  datatype StepIo = StepIo(command: map<string, string> -> CommandRun, openError: Option<string>)

  /** A step's result together with the file map it leaves behind. */
  datatype Effect = Effect(result: StepResult, files: map<string, string>)

  /** The step kinds the interpreter dispatches on. */
  predicate IsKnown(step: Step) {
    HasType(step, "command") || HasType(step, "write_file") || HasType(step, "read_file")
  }

  /**
   * The fields each kind reads before its `try`: a missing key (or a file name
   * that is not a string, which `os.path.join` rejects) raises out of the
   * interpreter instead of giving an `error` result.
   */
  predicate WellFormed(step: Step) {
    && (HasType(step, "command") ==> "command" in step)
    && (HasType(step, "write_file") ==> StrField(step, "filename").Some? && "content" in step)
    && (HasType(step, "read_file") ==> StrField(step, "filename").Some?)
  }

  /** The status mapping of `_execute_command`. */
  function CommandResult(outcome: CommandOutcome): (r: StepResult)
    ensures r.status == Success <==> outcome.Completed? && outcome.returncode == 0
    ensures r.status == Failure <==> outcome.Completed? && outcome.returncode != 0
    ensures r.status == Error <==> outcome.Raised?
    ensures outcome.Completed? ==> r.payload == Output(outcome.stdout, outcome.stderr, outcome.returncode)
    ensures outcome.Raised? ==> r.payload == ErrorText(outcome.message)
  {
    match outcome
    case Completed(code, out, err) =>
      StepResult(if code == 0 then Success else Failure, Output(out, err, code))
    case Raised(message) =>
      StepResult(Error, ErrorText(message))
  }

  /** How CPython's argument errors name the type of a bad argument: `None` itself by name, anything else by its type. */
  function TypeShown(typeName: string): string {
    if typeName == "NoneType" then "None" else typeName
  }

  /**
   * `_write_file` on a file map: opening for writing truncates the file, so
   * content that is not a string (which `write` then rejects) leaves an empty
   * file behind.
   */
  function WriteEffect(files: map<string, string>, path: string, filename: string, content: Value, openError: Option<string>): (e: Effect)
    ensures e.result.status == Success <==> openError.None? && content.Str?
    ensures e.result.status == Success ==>
              e.files == files[path := content.s] && e.result.payload == Message("File " + filename + " written.")
    ensures e.result.status != Success ==> e.result.status == Error
    ensures openError.Some? ==> e.files == files && e.result.payload == ErrorText(openError.value)
    ensures openError.None? && content.Other? ==>
              && e.files == files[path := ""]
              && e.result.payload == ErrorText("write() argument must be str, not " + TypeShown(content.typeName))
    ensures forall p :: p != path ==> (p in e.files <==> p in files)
    ensures forall p :: p != path && p in files ==> e.files[p] == files[p]
  {
    match openError
    case Some(err) => Effect(StepResult(Error, ErrorText(err)), files)
    case None =>
      match content
      case Str(s) => Effect(StepResult(Success, Message("File " + filename + " written.")), files[path := s])
      case Other(typeName, _) =>
        Effect(StepResult(Error, ErrorText("write() argument must be str, not " + TypeShown(typeName))), files[path := ""])
  }

  /**
   * What a text-mode read gives back for stored text: universal newlines turn
   * every "\r\n" and every lone "\r" into "\n".
   */
  function ReadText(s: string): (r: string)
    ensures |r| <= |s|
    ensures forall k :: 0 <= k < |r| ==> r[k] != '\r'
    ensures (forall k :: 0 <= k < |s| ==> s[k] != '\r') ==> r == s
  {
    if |s| == 0 then ""
    else if s[0] == '\r' then "\n" + ReadText(if |s| > 1 && s[1] == '\n' then s[2..] else s[1..])
    else [s[0]] + ReadText(s[1..])
  }

  /** A "\r\n" after text without '\r' is read as one "\n". */
  lemma {:induction false} ReadTextCrLf(t: string, u: string)
    requires forall k :: 0 <= k < |t| ==> t[k] != '\r'
    ensures ReadText(t + "\r\n" + u) == t + "\n" + ReadText(u)
    decreases |t|
  {
    var s := t + "\r\n" + u;
    if |t| == 0 {
      assert s[2..] == u;
    } else {
      assert s[1..] == t[1..] + "\r\n" + u;
      ReadTextCrLf(t[1..], u);
      assert s[0] == t[0];
    }
  }

  /** A '\r' that no '\n' follows, after text without '\r', is read as one "\n". */
  lemma {:induction false} ReadTextLoneCr(t: string, u: string)
    requires forall k :: 0 <= k < |t| ==> t[k] != '\r'
    requires |u| == 0 || u[0] != '\n'
    ensures ReadText(t + "\r" + u) == t + "\n" + ReadText(u)
    decreases |t|
  {
    var s := t + "\r" + u;
    if |t| == 0 {
      assert s[0] == '\r' && s[1..] == u;
      assert !(|s| > 1 && s[1] == '\n');
    } else {
      assert s[1..] == t[1..] + "\r" + u;
      ReadTextLoneCr(t[1..], u);
      assert s[0] == t[0];
    }
  }

  /** `_read_file` on a file map: a missing file is the `FileNotFoundError` Python raises. */
  function ReadResult(files: map<string, string>, path: string): (r: StepResult)
    ensures r.status == Success <==> path in files
    ensures r.status != Success ==> r.status == Error
    ensures path in files ==> r.payload == Content(ReadText(files[path]))
    ensures path !in files ==> r.payload == ErrorText("[Errno 2] No such file or directory: " + Repr(path))
  {
    if path in files then StepResult(Success, Content(ReadText(files[path])))
    else StepResult(Error, ErrorText("[Errno 2] No such file or directory: " + Repr(path)))
  }

  /** `execute_step`: the result of one step and the file map it leaves. */
  function Execute(files: map<string, string>, step: Step, cwd: string, io: StepIo): (e: Effect)
    requires WellFormed(step)
    ensures e.result.status == Skipped <==> !IsKnown(step)
    ensures !IsKnown(step) ==> e.result.payload == Reason("unknown step type: " + TypeText(step))
    ensures !HasType(step, "command") && !HasType(step, "write_file") ==> e.files == files
  {
    if HasType(step, "command") then
      var run := io.command(files);
      Effect(CommandResult(run.outcome), run.files)
    else if HasType(step, "write_file") then
      var filename := step["filename"].s;
      WriteEffect(files, PathJoin(cwd, filename), filename, step["content"], io.openError)
    else if HasType(step, "read_file") then
      Effect(ReadResult(files, PathJoin(cwd, step["filename"].s)), files)
    else
      Effect(StepResult(Skipped, Reason("unknown step type: " + TypeText(step))), files)
  }

  /**
   * A command step leaves the files the command left, and its status depends
   * on nothing but how the command ended.
   */
  lemma CommandStatus(files: map<string, string>, step: Step, cwd: string, io: StepIo)
    requires HasType(step, "command") && WellFormed(step)
    ensures var e, run := Execute(files, step, cwd, io), io.command(files);
            && e.files == run.files
            && (e.result.status == Success <==> run.outcome.Completed? && run.outcome.returncode == 0)
            && (e.result.status == Failure <==> run.outcome.Completed? && run.outcome.returncode != 0)
            && (e.result.status == Error <==> run.outcome.Raised?)
  {
  }

  /**
   * Reading the file a successful write just wrote gives back the written
   * content, with its line endings read as "\n"; content without a "\r"
   * comes back exactly.
   */
  lemma WriteThenRead(files: map<string, string>, write: Step, read: Step, cwd: string, io1: StepIo, io2: StepIo)
    requires HasType(write, "write_file") && WellFormed(write)
    requires HasType(read, "read_file") && WellFormed(read)
    requires write["filename"] == read["filename"]
    requires Execute(files, write, cwd, io1).result.status == Success
    ensures write["content"].Str?
    ensures Execute(Execute(files, write, cwd, io1).files, read, cwd, io2).result
            == StepResult(Success, Content(ReadText(write["content"].s)))
    ensures (forall k :: 0 <= k < |write["content"].s| ==> write["content"].s[k] != '\r') ==>
              Execute(Execute(files, write, cwd, io1).files, read, cwd, io2).result
              == StepResult(Success, Content(write["content"].s))
  {
  }

  /** The directory tree the steps act on, as a map from path to file content. */
  class FileSystem {
    var files: map<string, string>

    constructor (files: map<string, string>)
      ensures this.files == files
    {
      this.files := files;
    }
  }

  /** `_write_file`: sets the file at `join(cwd, filename)`. */
  method WriteFile(fs: FileSystem, step: Step, cwd: string, openError: Option<string>) returns (r: StepResult)
    requires StrField(step, "filename").Some? && "content" in step
    modifies fs
    ensures var filename := step["filename"].s;
            Effect(r, fs.files) == WriteEffect(old(fs.files), PathJoin(cwd, filename), filename, step["content"], openError)
  {
    var filename := step["filename"].s;
    var content := step["content"];
    var path := PathJoin(cwd, filename);
    if openError.Some? {
      return StepResult(Error, ErrorText(openError.value));
    }
    match content
    case Str(s) =>
      fs.files := fs.files[path := s];
      r := StepResult(Success, Message("File " + filename + " written."));
    case Other(typeName, _) =>
      fs.files := fs.files[path := ""];
      r := StepResult(Error, ErrorText("write() argument must be str, not " + TypeShown(typeName)));
  }

  /** `_read_file`: reports the file at `join(cwd, filename)` and changes nothing. */
  method ReadFile(fs: FileSystem, step: Step, cwd: string) returns (r: StepResult)
    requires StrField(step, "filename").Some?
    ensures var path := PathJoin(cwd, step["filename"].s);
            && (r.status == Success <==> path in fs.files)
            && (path in fs.files ==> r.payload == Content(ReadText(fs.files[path])))
            && (path !in fs.files ==> r.status == Error)
            && r == ReadResult(fs.files, path)
  {
    var path := PathJoin(cwd, step["filename"].s);
    if path in fs.files {
      r := StepResult(Success, Content(ReadText(fs.files[path])));
    } else {
      r := StepResult(Error, ErrorText("[Errno 2] No such file or directory: " + Repr(path)));
    }
  }

  /** `execute_step`: dispatches on `step["type"]`. */
  method ExecuteStep(fs: FileSystem, step: Step, cwd: string, io: StepIo) returns (r: StepResult)
    requires WellFormed(step)
    modifies fs
    ensures Effect(r, fs.files) == Execute(old(fs.files), step, cwd, io)
  {
    if HasType(step, "command") {
      var run := io.command(fs.files);
      fs.files := run.files;
      r := CommandResult(run.outcome);
    } else if HasType(step, "write_file") {
      r := WriteFile(fs, step, cwd, io.openError);
    } else if HasType(step, "read_file") {
      r := ReadFile(fs, step, cwd);
    } else {
      r := StepResult(Skipped, Reason("unknown step type: " + TypeText(step)));
    }
  }
}

=== FILE: memory.dfy ===
/**
 * The trace store: an append-only list of execution traces (episodic memory)
 * and an append-only list of procedural rules, rewritten as a whole to the
 * memory file after every append.
 *
 * The memory file is a field holding the last document written (`None`
 * while no file exists); the JSON encoding of that document is not modelled.
 */
module Memory {
  import opened Wrappers
  import opened Plans
  import opened Executor

  /** One executed step of a trace: `{"step": ..., "result": ...}`. */
  datatype Entry = Entry(step: Step, result: StepResult)

  /** `{"task", "plan", "steps", "workspace", "status"}` of one run. */
  datatype Trace = Trace(task: string, plan: Plan, steps: seq<Entry>, workspace: string, status: string)

  /** `{"trigger": task, "action": plan}`. */
  datatype Rule = Rule(trigger: string, action: Plan)

  /** The memory file: a JSON object whose keys may be missing. */
  datatype Document = Document(episodic: Option<seq<Trace>>, procedural: Option<seq<Rule>>)

  /** The document `save_memory` writes. */
  function Snapshot(episodic: seq<Trace>, procedural: seq<Rule>): Document {
    Document(Some(episodic), Some(procedural))
  }

  class Memory {
    var episodic: seq<Trace>
    var procedural: seq<Rule>
    /** The content of the memory file, `None` while there is no file. */
    var stored: Option<Document>
    /** Every document written to the memory file, oldest first. */
    ghost var writes: seq<Document>

    /** `Memory()`: starts empty, then loads the memory file if there is one. */
    constructor (file: Option<Document>)
      ensures stored == file && writes == []
      ensures file.None? ==> episodic == [] && procedural == []
      ensures file.Some? ==> episodic == file.value.episodic.GetOr([]) && procedural == file.value.procedural.GetOr([])
    {
      episodic := [];
      procedural := [];
      stored := file;
      writes := [];
      new;
      LoadMemory();
    }

    /** `load_memory`: replaces both lists by the file's, a missing key giving an empty list; no file, no change. */
    method LoadMemory()
      modifies this
      ensures stored == old(stored) && writes == old(writes)
      ensures old(stored).None? ==> episodic == old(episodic) && procedural == old(procedural)
      ensures old(stored).Some? ==>
                && episodic == old(stored).value.episodic.GetOr([])
                && procedural == old(stored).value.procedural.GetOr([])
      ensures old(stored) == Some(Snapshot(old(episodic), old(procedural))) ==>
                episodic == old(episodic) && procedural == old(procedural)
    {
      if stored.Some? {
        episodic := stored.value.episodic.GetOr([]);
        procedural := stored.value.procedural.GetOr([]);
      }
    }

    /** `save_memory`: rewrites the whole file from both lists. */
    method SaveMemory()
      modifies this
      ensures episodic == old(episodic) && procedural == old(procedural)
      ensures stored == Some(Snapshot(episodic, procedural))
      ensures writes == old(writes) + [Snapshot(episodic, procedural)]
    {
      stored := Some(Snapshot(episodic, procedural));
      writes := writes + [Snapshot(episodic, procedural)];
    }

    /** `add_trace`: appends to episodic memory and saves. */
    method AddTrace(trace: Trace)
      modifies this
      ensures episodic == old(episodic) + [trace] && procedural == old(procedural)
      ensures stored == Some(Snapshot(episodic, procedural))
      ensures writes == old(writes) + [Snapshot(episodic, procedural)]
    {
      episodic := episodic + [trace];
      SaveMemory();
    }

    /** `get_procedural_rules`. */
    method GetProceduralRules() returns (rules: seq<Rule>)
      ensures rules == procedural
    {
      rules := procedural;
    }

    /** `update_procedural_memory`: appends a rule and saves. */
    method UpdateProceduralMemory(rule: Rule)
      modifies this
      ensures procedural == old(procedural) + [rule] && episodic == old(episodic)
      ensures stored == Some(Snapshot(episodic, procedural))
      ensures writes == old(writes) + [Snapshot(episodic, procedural)]
    {
      procedural := procedural + [rule];
      SaveMemory();
    }
  }
}

=== FILE: planner.dfy ===
/**
 * The planner: builds a prompt from the task and the environment, asks the
 * language model once, and pulls a plan out of the free-form answer.
 *
 * The model is an oracle `llm(prompt, systemInstruction)`; `json.loads` is an
 * oracle `decode` that gives `None` where it raises `JSONDecodeError`.
 */
module Planner {
  import opened Wrappers
  import opened Text
  import opened Plans

  const SystemInstruction: string :=
    "You are an expert coding agent. Return your plan as a JSON list of steps.\n"
    + "Allowed step types:\n"
    + "1. {\"type\": \"command\", \"command\": \"...\"} - Run a shell command.\n"
    + "2. {\"type\": \"write_file\", \"filename\": \"...\", \"content\": \"...\"} - Write a file.\n"
    + "3. {\"type\": \"read_file\", \"filename\": \"...\"} - Read a file.\n"
    + "Note: You are working in a clean, isolated project directory. You do not need to create a folder."

  /**
   * The environment dictionary the coordinator builds, keys in insertion
   * order: `os`, `shell`, `tools` (name to path), `files` (absent when
   * `None`) and `cwd`.
   */
  datatype EnvInfo = EnvInfo(os: string, shell: string, tools: seq<(string, string)>, files: Option<seq<string>>, cwd: string)

  function ReprItems(items: seq<string>): seq<string> {
    if |items| == 0 then [] else [Repr(items[0])] + ReprItems(items[1..])
  }

  function ReprPairs(pairs: seq<(string, string)>): seq<string> {
    if |pairs| == 0 then [] else [Repr(pairs[0].0) + ": " + Repr(pairs[0].1)] + ReprPairs(pairs[1..])
  }

  /** `str()` of a list of strings. */
  function ReprList(items: seq<string>): string {
    "[" + Join(", ", ReprItems(items)) + "]"
  }

  /** `str()` of the environment dictionary. */
  function ReprEnv(ctx: EnvInfo): string {
    "{'os': " + Repr(ctx.os)
    + ", 'shell': " + Repr(ctx.shell)
    + ", 'tools': {" + Join(", ", ReprPairs(ctx.tools)) + "}"
    + (if ctx.files.Some? then ", 'files': " + ReprList(ctx.files.value) else "")
    + ", 'cwd': " + Repr(ctx.cwd) + "}"
  }

  /** The prompt of `create_plan`: task, environment, the files line when the context has one, then `Plan:`. */
  function Prompt(task: string, ctx: EnvInfo): (p: string)
    ensures "Task: " + task + "\n\nEnvironment: " + ReprEnv(ctx) + "\n\n" <= p
    ensures |p| >= 5 && p[|p| - 5..] == "Plan:"
    ensures ctx.files.Some? ==>
              var tail := "Files: " + ReprList(ctx.files.value) + "\n\n" + "Plan:";
              |tail| <= |p| && p[|p| - |tail|..] == tail
    ensures ctx.files.None? ==>
              var tail := ReprEnv(ctx) + "\n\nPlan:";
              |tail| <= |p| && p[|p| - |tail|..] == tail
  {
    var intro := "Task: " + task + "\n\nEnvironment: ";
    var files := if ctx.files.Some? then "Files: " + ReprList(ctx.files.value) + "\n\n" else "";
    PromptEnds(intro, ReprEnv(ctx), files);
    intro + (ReprEnv(ctx) + ("\n\n" + (files + "Plan:")))
  }

  lemma PromptEnds(intro: string, env: string, files: string)
    ensures var p := intro + (env + ("\n\n" + (files + "Plan:")));
            && intro + env + "\n\n" <= p
            && p[|p| - 5..] == "Plan:"
            && p[|p| - |files + "Plan:"|..] == files + "Plan:"
            && (files == [] ==> p[|p| - |env + "\n\nPlan:"|..] == env + "\n\nPlan:")
  {
    var p := intro + (env + ("\n\n" + (files + "Plan:")));
    assert p == (intro + env + "\n\n") + (files + "Plan:");
    if files == [] {
      assert p == intro + (env + "\n\nPlan:");
    }
  }

  const Opener: string := "```json"
  const Fence: string := "```"

  /** The substring of the answer that is handed to the decoder. */
  datatype Stage =
    | FencedBlock(text: string)    // the body of the first ```json ... ``` block
    | BracketSpan(text: string)    // from the first '[' to the last ']'
    | WholeResponse(text: string)  // the answer itself

  /**
   * The three searches of `create_plan`, in order: `` ```json\s*(.*?)\s*``` ``,
   * then `\[.*\]`, then the whole answer (both patterns with DOTALL).
   */
  function SelectStage(response: string): (st: Stage)
    ensures st.WholeResponse? ==> st.text == response
  {
    match IndexFrom(response, Opener, 0)
    case Some(i) =>
      (match IndexFrom(response, Fence, i + |Opener|)
       case Some(p) => FencedBlock(Strip(response[i + |Opener|..p]))
       case None => BracketOrWhole(response))
    case None => BracketOrWhole(response)
  }

  function BracketOrWhole(response: string): Stage {
    match (FirstIndexOf(response, '['), LastIndexOf(response, ']'))
    case (Some(a), Some(b)) => if a < b then BracketSpan(response[a..b + 1]) else WholeResponse(response)
    case _ => WholeResponse(response)
  }

  /** Some ```json opener is followed, anywhere later, by a closing fence. */
  ghost predicate HasFencedBlock(response: string) {
    exists i, p :: OccursAt(response, Opener, i) && i + |Opener| <= p && OccursAt(response, Fence, p)
  }

  /** Some '[' is followed, anywhere later, by a ']'. */
  ghost predicate HasBracketSpan(response: string) {
    exists a, b :: 0 <= a < b < |response| && response[a] == '[' && response[b] == ']'
  }

  /**
   * The fenced stage is taken exactly when an opener has a fence after it, and
   * its text is what lies between the first opener and the first fence after
   * it, stripped of surrounding whitespace.
   */
  lemma FencedStage(response: string)
    ensures SelectStage(response).FencedBlock? <==> HasFencedBlock(response)
    ensures HasFencedBlock(response) ==>
              exists i, p ::
                && OccursAt(response, Opener, i) && i + |Opener| <= p && OccursAt(response, Fence, p)
                && (forall k :: 0 <= k < i ==> !OccursAt(response, Opener, k))
                && (forall k :: i + |Opener| <= k < p ==> !OccursAt(response, Fence, k))
                && SelectStage(response) == FencedBlock(Strip(response[i + |Opener|..p]))
  {
    var opener := IndexFrom(response, Opener, 0);
    if opener.Some? {
      var i := opener.value;
      var fence := IndexFrom(response, Fence, i + |Opener|);
      if fence.None? {
        forall i', p' | OccursAt(response, Opener, i') && i' + |Opener| <= p'
          ensures !OccursAt(response, Fence, p')
        {
          assert i <= i';
        }
      }
    }
  }

  /**
   * Without a fenced block, the bracket stage is taken exactly when a '[' has a
   * ']' after it, and its text runs from the first '[' to the last ']'.
   */
  lemma BracketStage(response: string, a: nat, b: nat)
    requires !HasFencedBlock(response)
    requires a < b < |response| && response[a] == '[' && response[b] == ']'
    requires forall k :: 0 <= k < a ==> response[k] != '['
    requires forall k :: b < k < |response| ==> response[k] != ']'
    ensures SelectStage(response) == BracketSpan(response[a..b + 1])
  {
    FencedStage(response);
    assert BracketOrWhole(response) == BracketSpan(response[a..b + 1]);
  }

  /** With neither a fenced block nor a bracketed span, the whole answer is decoded. */
  lemma WholeStage(response: string)
    requires !HasFencedBlock(response) && !HasBracketSpan(response)
    ensures SelectStage(response) == WholeResponse(response)
  {
    FencedStage(response);
    var first, last := FirstIndexOf(response, '['), LastIndexOf(response, ']');
    if first.Some? && last.Some? && first.value < last.value {
      assert false;
    }
  }

  /** The plan used when the chosen text does not decode: echo the failure. */
  function Fallback(task: string): (plan: Plan)
    ensures |plan| == 1 && HasType(plan[0], "command")
    ensures plan[0].Keys == {"type", "command"}
    ensures StrField(plan[0], "command") == Some("echo 'Could not parse plan for: " + task + "'")
  {
    [map["type" := Str("command"), "command" := Str("echo 'Could not parse plan for: " + task + "'")]]
  }

  /** The decoding step of `create_plan`: decode the chosen stage, fall back if that fails. */
  function ExtractPlan(task: string, response: string, decode: string -> Option<Plan>): (plan: Plan)
    ensures decode(SelectStage(response).text).Some? ==> plan == decode(SelectStage(response).text).value
    ensures decode(SelectStage(response).text).None? ==> plan == Fallback(task)
  {
    decode(SelectStage(response).text).GetOr(Fallback(task))
  }

  /**
   * A fenced block that does not decode gives the fallback plan, whatever a
   * bracketed span or the whole answer would have decoded to.
   */
  lemma FencedFailureFallsBack(task: string, response: string, decode: string -> Option<Plan>, i: nat, p: nat)
    requires OccursAt(response, Opener, i) && i + |Opener| <= p && OccursAt(response, Fence, p)
    requires forall k :: 0 <= k < i ==> !OccursAt(response, Opener, k)
    requires forall k :: i + |Opener| <= k < p ==> !OccursAt(response, Fence, k)
    requires decode(Strip(response[i + |Opener|..p])).None?
    ensures ExtractPlan(task, response, decode) == Fallback(task)
  {
    IndexFromFirst(response, Opener, 0, i);
    IndexFromFirst(response, Fence, i + |Opener|, p);
    assert SelectStage(response) == FencedBlock(Strip(response[i + |Opener|..p]));
  }

  /**
   * `create_plan`: one call to the model with the prompt and the fixed system
   * instruction; the plan is the decoding of the stage chosen in that one
   * answer, or the fallback when that text does not decode. No error escapes.
   */
  function CreatePlan(task: string, ctx: EnvInfo, llm: (string, string) -> string, decode: string -> Option<Plan>): (plan: Plan)
    ensures var text := SelectStage(llm(Prompt(task, ctx), SystemInstruction)).text;
            || (decode(text).Some? && plan == decode(text).value)
            || (decode(text).None? && plan == Fallback(task))
  {
    var response := llm(Prompt(task, ctx), SystemInstruction);
    ExtractPlan(task, response, decode)
  }
}

=== FILE: plans.dfy ===
/**
 * The wire shape of a plan: the planner hands the coordinator whatever the
 * JSON decoder produced, a list of objects, and every consumer reads the
 * objects' fields by key.
 */
module Plans {
  import opened Wrappers

  /**
   * A decoded JSON field value. Only strings are looked into; any other value
   * (number, boolean, null, list, object) keeps the name of its Python type
   * and the text `str()` gives for it.
   */
  datatype Value = Str(s: string) | Other(typeName: string, text: string)

  /** One step: a JSON object, `{"type": ..., ...kind-specific fields}`. */
  type Step = map<string, Value>

  /** Steps in execution order. */
  type Plan = seq<Step>

  /** `step.get("type") == name`. */
  predicate HasType(step: Step, name: string) {
    "type" in step && step["type"] == Str(name)
  }

  /** `str(step.get("type"))`: `None` for a missing key. */
  function TypeText(step: Step): string {
    if "type" !in step then "None"
    else match step["type"]
      case Str(s) => s
      case Other(_, text) => text
  }

  /** `step[key]` when it is a string. */
  function StrField(step: Step, key: string): Option<string> {
    if key in step && step[key].Str? then Some(step[key].s) else None
  }
}

=== FILE: poker_sum.dfy ===
/**
 * The three-card sum game on bare card values: ace 11, tens and face cards
 * 10, every other card its face value. The shuffle draws and the two
 * `random.sample` results are inputs; printed text is not modelled except
 * for the hand display string.
 */
module PokerSum {
  import opened Wrappers
  import opened Text
  import opened CardGames

  /** `[value] * n`. */
  function Repeat(value: int, n: nat): (r: seq<int>)
    ensures |r| == n && forall k :: 0 <= k < n ==> r[k] == value
  {
    seq(n, _ => value)
  }

  lemma {:induction false} RepeatCounts(value: int, n: nat)
    ensures forall w :: multiset(Repeat(value, n))[w] == if w == value then n else 0
  {
    if n > 0 {
      RepeatCounts(value, n - 1);
      assert Repeat(value, n) == Repeat(value, n - 1) + [value];
    }
  }

  /** Four cards of each value from 2 up to `hi - 1`, ascending. */
  function FaceBlocks(hi: int): (r: seq<int>)
    requires 2 <= hi <= 11
    decreases hi
  {
    if hi == 2 then [] else FaceBlocks(hi - 1) + Repeat(hi - 1, 4)
  }

  /** The deck `create_deck` builds before shuffling: 2..10 four times each, twelve more 10s, four 11s. */
  function OrderedDeck(): seq<int> {
    FaceBlocks(11) + Repeat(10, 12) + Repeat(11, 4)
  }

  /** How many cards of value `v` the deck holds. */
  function DeckCount(v: int): nat {
    if 2 <= v <= 9 then 4 else if v == 10 then 16 else if v == 11 then 4 else 0
  }

  lemma {:induction false} FaceBlocksCounts(hi: int)
    requires 2 <= hi <= 11
    ensures |FaceBlocks(hi)| == 4 * (hi - 2)
    ensures forall v :: multiset(FaceBlocks(hi))[v] == if 2 <= v < hi then 4 else 0
    decreases hi
  {
    if hi > 2 {
      FaceBlocksCounts(hi - 1);
      RepeatCounts(hi - 1, 4);
      var before, block := FaceBlocks(hi - 1), Repeat(hi - 1, 4);
      forall v
        ensures multiset(before + block)[v] == if 2 <= v < hi then 4 else 0
      {
        assert multiset(before + block)[v] == multiset(before)[v] + multiset(block)[v];
      }
    }
  }

  /** A deck with the multiplicities of `create_deck`; its values are then all in [2, 11]. */
  ghost predicate IsFullDeck(deck: seq<int>) {
    |deck| == 52 && forall v :: multiset(deck)[v] == DeckCount(v)
  }

  lemma FullDeckValues(deck: seq<int>)
    requires IsFullDeck(deck)
    ensures forall k :: 0 <= k < |deck| ==> 2 <= deck[k] <= 11
  {
    forall k | 0 <= k < |deck|
      ensures 2 <= deck[k] <= 11
    {
      assert deck[k] in multiset(deck);
    }
  }

  /** The count of `v` in a deck laid out as the face blocks, the extra tens and the aces. */
  lemma CountInParts(faces: seq<int>, tens: seq<int>, aces: seq<int>, v: int)
    requires forall w :: multiset(faces)[w] == if 2 <= w < 11 then 4 else 0
    requires forall w :: multiset(tens)[w] == if w == 10 then 12 else 0
    requires forall w :: multiset(aces)[w] == if w == 11 then 4 else 0
    ensures multiset(faces + tens + aces)[v] == DeckCount(v)
  {
    assert multiset(faces + tens + aces)[v] == multiset(faces)[v] + multiset(tens)[v] + multiset(aces)[v];
  }

  /** The ordered deck holds 52 cards: four of each value 2..9, sixteen 10s and four 11s. */
  lemma OrderedDeckCounts()
    ensures IsFullDeck(OrderedDeck())
  {
    var faces, tens, aces := FaceBlocks(11), Repeat(10, 12), Repeat(11, 4);
    assert |faces + tens + aces| == 52 by {
      FaceBlocksCounts(11);
    }
    assert forall v :: multiset(faces + tens + aces)[v] == DeckCount(v) by {
      FaceBlocksCounts(11);
      RepeatCounts(10, 12);
      RepeatCounts(11, 4);
      forall v
        ensures multiset(faces + tens + aces)[v] == DeckCount(v)
      {
        CountInParts(faces, tens, aces, v);
      }
    }
  }

  /** Shuffling keeps the counts of the deck, so every shuffled card lies in [2, 11]. */
  lemma DeckCounts(picks: seq<nat>)
    requires ValidPicks(picks, 52)
    ensures |OrderedDeck()| == 52 && IsFullDeck(Shuffled(OrderedDeck(), picks))
    ensures forall k :: 0 <= k < 52 ==> 2 <= Shuffled(OrderedDeck(), picks)[k] <= 11
  {
    OrderedDeckCounts();
    ShufflePermutes(OrderedDeck(), picks, 52);
    FullDeckValues(Shuffled(OrderedDeck(), picks));
  }

  /** `create_deck`: the ordered deck, then `random.shuffle`. */
  method CreateDeck(picks: seq<nat>) returns (deck: seq<int>)
    requires ValidPicks(picks, 52)
    ensures deck == Shuffled(OrderedDeck(), picks)
  {
    deck := [];
    for value := 2 to 11
      invariant deck == FaceBlocks(value)
    {
      deck := deck + Repeat(value, 4);
    }
    deck := deck + Repeat(10, 12);
    deck := deck + Repeat(11, 4);
    assert deck == OrderedDeck() && |deck| == 52 by {
      FaceBlocksCounts(11);
    }
    var cards := new int[|deck|](k requires 0 <= k < |deck| => deck[k]);
    assert cards[..] == deck;
    Shuffle(cards, picks);
    deck := cards[..];
  }

  /** `list.index(x)`: the position of the first occurrence of `x`. */
  function FirstIndex(s: seq<int>, x: int): (i: nat)
    requires x in s
    ensures i < |s| && s[i] == x && x !in s[..i]
  {
    if s[0] == x then 0
    else
      var i := FirstIndex(s[1..], x);
      assert s[..i + 1] == [s[0]] + s[1..][..i];
      i + 1
  }

  /** `list.remove(x)`: drops the first occurrence of `x`. */
  function RemoveFirst(s: seq<int>, x: int): (r: seq<int>)
    requires x in s
    ensures |r| == |s| - 1
    ensures multiset(r) == multiset(s) - multiset{x}
  {
    var i := FirstIndex(s, x);
    assert s == s[..i] + [x] + s[i + 1..];
    s[..i] + s[i + 1..]
  }

  /** The deck left after removing, in order, the first occurrence of each drawn card. */
  function RemoveEach(s: seq<int>, drawn: seq<int>): (r: seq<int>)
    requires multiset(drawn) <= multiset(s)
    ensures |r| == |s| - |drawn|
    ensures multiset(r) + multiset(drawn) == multiset(s)
    decreases |drawn|
  {
    if |drawn| == 0 then s
    else
      var last := drawn[|drawn| - 1];
      assert drawn == drawn[..|drawn| - 1] + [last];
      var before := RemoveEach(s, drawn[..|drawn| - 1]);
      assert multiset(drawn)[last] == multiset(drawn[..|drawn| - 1])[last] + 1;
      assert multiset(before)[last] == multiset(s)[last] - multiset(drawn[..|drawn| - 1])[last];
      RemoveFirst(before, last)
  }

  /** One more card removed: the next prefix is still drawable and its remainder is one `remove` further. */
  lemma RemoveEachStep(s: seq<int>, drawn: seq<int>, k: nat)
    requires multiset(drawn) <= multiset(s) && k < |drawn|
    ensures multiset(drawn[..k]) <= multiset(s) && multiset(drawn[..k + 1]) <= multiset(s)
    ensures drawn[k] in RemoveEach(s, drawn[..k])
    ensures RemoveEach(s, drawn[..k + 1]) == RemoveFirst(RemoveEach(s, drawn[..k]), drawn[k])
  {
    var prefix, next := drawn[..k], drawn[..k + 1];
    assert multiset(next) <= multiset(s) by {
      assert drawn == next + drawn[k + 1..];
    }
    assert next == prefix + [drawn[k]];
    assert multiset(prefix) <= multiset(s);
    var before := RemoveEach(s, prefix);
    assert multiset(before)[drawn[k]] > 0 by {
      assert multiset(next)[drawn[k]] == multiset(prefix)[drawn[k]] + 1;
    }
    assert next[..k] == prefix;
  }

  /**
   * `draw_hand`: a deck shorter than `numCards` raises `ValueError` with the
   * message below; otherwise the hand is the random sample and the remainder
   * a fresh list, the deck with each drawn card's first occurrence removed.
   * `sample` is what `random.sample(deck, numCards)` returned.
   */
  method DrawHand(deck: seq<int>, numCards: nat, sample: seq<int>) returns (r: Result<(seq<int>, seq<int>), string>)
    requires |deck| >= numCards ==> |sample| == numCards && multiset(sample) <= multiset(deck)
    ensures r.Err? <==> |deck| < numCards
    ensures r.Err? ==> r.error == "Not enough cards in the deck."
    ensures r.Ok? ==> r.value.0 == sample && r.value.1 == RemoveEach(deck, sample)
    ensures r.Ok? ==>
              && |r.value.0| == numCards && |r.value.1| == |deck| - numCards
              && multiset(r.value.0) + multiset(r.value.1) == multiset(deck)
  {
    if |deck| < numCards {
      return Err("Not enough cards in the deck.");
    }
    var hand := sample;
    var rest := deck;
    for k := 0 to |hand|
      invariant multiset(hand[..k]) <= multiset(deck)
      invariant rest == RemoveEach(deck, hand[..k])
    {
      RemoveEachStep(deck, hand, k);
      rest := RemoveFirst(rest, hand[k]);
    }
    assert hand[..|hand|] == hand;
    return Ok((hand, rest));
  }

  /** `calculate_score`: the sum of the hand; for three cards, the three values added. */
  function Score(hand: seq<int>): (score: int)
    ensures |hand| == 3 ==> score == hand[0] + hand[1] + hand[2]
  {
    SumOfThree(hand);
    Sum(hand)
  }

  /** A three-card hand drawn from a full deck scores between 6 and 33. */
  lemma ScoreOfDrawnHand(deck: seq<int>, hand: seq<int>)
    requires IsFullDeck(deck) && |hand| == 3 && multiset(hand) <= multiset(deck)
    ensures 6 <= Score(hand) <= 33
  {
    FullDeckValues(deck);
    forall k | 0 <= k < |hand|
      ensures 2 <= hand[k] <= 11
    {
      assert hand[k] in multiset(hand);
      assert hand[k] in multiset(deck);
      var i :| 0 <= i < |deck| && deck[i] == hand[k];
    }
    SumBounds(hand, 2, 11);
  }

  /** How `display_hand` shows one card: `A` for 11, `10/J/Q/K` for 10, otherwise `str(c)`. */
  function CardLabel(c: int): string {
    if c == 11 then "A" else if c == 10 then "10/J/Q/K" else IntToString(c)
  }

  /** The label is `A` exactly for 11, `10/J/Q/K` exactly for 10, and a single digit for 2..9. */
  lemma CardLabels(c: int)
    ensures CardLabel(c) == "A" <==> c == 11
    ensures CardLabel(c) == "10/J/Q/K" <==> c == 10
    ensures 0 <= c <= 9 ==> CardLabel(c) == [DigitChar(c)]
  {
    if c != 11 && c != 10 {
      var t := IntToString(c);
      if c < 0 {
        assert t[0] == '-';
        assert |t| >= 2;
      } else {
        assert '0' <= t[0] <= '9';
        if |t| >= 3 {
          assert '0' <= t[2] <= '9';
        }
      }
    }
  }

  function Labels(hand: seq<int>): (labels: seq<string>)
    ensures |labels| == |hand| && forall k :: 0 <= k < |hand| ==> labels[k] == CardLabel(hand[k])
  {
    if |hand| == 0 then [] else [CardLabel(hand[0])] + Labels(hand[1..])
  }

  function Decimals(values: seq<int>): (texts: seq<string>)
    ensures |texts| == |values| && forall k :: 0 <= k < |values| ==> texts[k] == IntToString(values[k])
  {
    if |values| == 0 then [] else [IntToString(values[0])] + Decimals(values[1..])
  }

  /** `display_hand`: the labels, comma separated in brackets, then `str(hand)` of the values. */
  function DisplayHand(hand: seq<int>): string {
    "[" + Join(", ", Labels(hand)) + "] (Values: [" + Join(", ", Decimals(hand)) + "])"
  }

  /** `", ".join` of three texts. */
  lemma JoinThree(x: string, y: string, z: string)
    ensures Join(", ", [x, y, z]) == x + ", " + y + ", " + z
  {
    assert [x, y, z][1..] == [y, z] && [y, z][1..] == [z];
    assert Join(", ", [y, z]) == y + ", " + z;
    assert Join(", ", [x, y, z]) == x + ", " + (y + ", " + z);
    assert x + ", " + (y + ", " + z) == x + ", " + y + ", " + z;
  }

  /** What `display_hand` prints for a three-card hand, card by card. */
  lemma DisplayThreeCards(a: int, b: int, c: int)
    ensures DisplayHand([a, b, c])
            == "[" + (CardLabel(a) + ", " + CardLabel(b) + ", " + CardLabel(c)) + "] (Values: ["
               + (IntToString(a) + ", " + IntToString(b) + ", " + IntToString(c)) + "])"
  {
    var la, lb, lc := CardLabel(a), CardLabel(b), CardLabel(c);
    var da, db, dc := IntToString(a), IntToString(b), IntToString(c);
    assert Labels([a, b, c]) == [la, lb, lc];
    assert Decimals([a, b, c]) == [da, db, dc];
    JoinThree(la, lb, lc);
    JoinThree(da, db, dc);
  }

  /** One finished game: both hands, both scores and who won. */
  datatype Round = Round(playerHand: seq<int>, playerScore: int, computerHand: seq<int>, computerScore: int, outcome: Outcome)

  /**
   * `play_game`: shuffle a new deck, draw three cards for the player and
   * three for the computer, and compare the sums. Its `ValueError` handler
   * is never reached: the 52-card deck always holds the six cards drawn.
   */
  method PlayGame(picks: seq<nat>, playerSample: seq<int>, computerSample: seq<int>) returns (round: Round)
    requires ValidPicks(picks, 52)
    requires |playerSample| == 3 && multiset(playerSample) <= multiset(OrderedDeck())
    requires |computerSample| == 3 && multiset(computerSample) <= multiset(OrderedDeck()) - multiset(playerSample)
    ensures round.playerHand == playerSample && round.computerHand == computerSample
    ensures round.playerScore == Score(playerSample) && round.computerScore == Score(computerSample)
    ensures 6 <= round.playerScore <= 33 && 6 <= round.computerScore <= 33
    ensures round.outcome == Compare(round.playerScore, round.computerScore)
  {
    var deck := CreateDeck(picks);
    DeckCounts(picks);
    ShufflePermutes(OrderedDeck(), picks, 52);
    var first := DrawHand(deck, 3, playerSample);
    if first.Err? {
      assert false;
    }
    var (playerHand, rest) := first.value;
    var playerScore := Score(playerHand);
    var second := DrawHand(rest, 3, computerSample);
    if second.Err? {
      assert false;
    }
    var (computerHand, _) := second.value;
    var computerScore := Score(computerHand);
    ScoreOfDrawnHand(deck, playerHand);
    ScoreOfDrawnHand(deck, computerHand);
    return Round(playerHand, playerScore, computerHand, computerScore, Compare(playerScore, computerScore));
  }
}

=== FILE: reflector.dfy ===
/** The reflector: turns a successful trace into a procedural rule. */
module Reflector {
  import opened Wrappers
  import opened Memory

  /** The rules a trace yields: `{trigger: task, action: plan}` exactly when its status is `"success"`. */
  function DerivedRules(trace: Trace): (rules: seq<Rule>)
    ensures |rules| <= 1
    ensures |rules| == 1 <==> trace.status == "success"
    ensures forall r :: r in rules ==> r.trigger == trace.task && r.action == trace.plan
  {
    if trace.status == "success" then [Rule(trace.task, trace.plan)] else []
  }

  class Reflector {
    const memory: Memory

    constructor (memory: Memory)
      ensures this.memory == memory
    {
      this.memory := memory;
    }

    /**
     * `reflect`: a successful trace appends its rule to procedural memory
     * (and the store is saved); any other trace changes nothing.
     */
    method Reflect(trace: Trace)
      modifies memory
      ensures memory.episodic == old(memory.episodic)
      ensures memory.procedural == old(memory.procedural) + DerivedRules(trace)
      ensures trace.status == "success" ==>
                && memory.stored == Some(Snapshot(memory.episodic, memory.procedural))
                && memory.writes == old(memory.writes) + [Snapshot(memory.episodic, memory.procedural)]
      ensures trace.status != "success" ==>
                memory.stored == old(memory.stored) && memory.writes == old(memory.writes)
    {
      if trace.status == "success" {
        memory.UpdateProceduralMemory(Rule(trace.task, trace.plan));
      }
    }
  }
}

=== FILE: simple_poker.dfy ===
/**
 * The three-card sum game on full cards: thirteen ranks, ace low (1) up to
 * king (13), four suits. The shuffle draws are an input; printed text is not
 * modelled except for a card's display string.
 */
module SimplePoker {
  import opened CardGames

  const Ranks: seq<string> := ["A", "2", "3", "4", "5", "6", "7", "8", "9", "10", "J", "Q", "K"]

  const CardValues: map<string, int> :=
    map["A" := 1, "2" := 2, "3" := 3, "4" := 4, "5" := 5, "6" := 6, "7" := 7, "8" := 8, "9" := 9, "10" := 10,
        "J" := 11, "Q" := 12, "K" := 13]

  const Suits: seq<string> := ["Hearts", "Diamonds", "Clubs", "Spades"]

  /** `{'rank': ..., 'value': ..., 'suit': ...}`. */
  datatype Card = Card(rank: string, value: int, suit: string)

  /** Every rank has a value, and the `r`-th rank is worth `r + 1`. */
  lemma RankValues()
    ensures |Ranks| == 13 && |Suits| == 4
    ensures forall r :: 0 <= r < 13 ==> Ranks[r] in CardValues && CardValues[Ranks[r]] == r + 1
  {
  }

  /** The deck `create_deck` returns: card `i` has rank `i / 4`, that rank's value and suit `i % 4`. */
  function StandardDeck(): (deck: seq<Card>)
    ensures |deck| == 52
  {
    seq(52, i requires 0 <= i < 52 => Card(Ranks[i / 4], i / 4 + 1, Suits[i % 4]))
  }

  /** The card at `4 * r + s` is rank `r`, worth `r + 1`, in suit `s`. */
  lemma CardAt(r: nat, s: nat)
    requires r < 13 && s < 4
    ensures StandardDeck()[4 * r + s] == Card(Ranks[r], r + 1, Suits[s])
  {
    assert (4 * r + s) / 4 == r && (4 * r + s) % 4 == s;
  }

  /** `create_deck`: for each rank in order, one card per suit in order, valued by `CARD_VALUES`. */
  method CreateDeck() returns (deck: seq<Card>)
    ensures deck == StandardDeck()
  {
    assert |Ranks| == 13 && |Suits| == 4;
    deck := [];
    for r := 0 to |Ranks|
      invariant deck == StandardDeck()[..4 * r]
    {
      var rank := Ranks[r];
      assert rank in CardValues && CardValues[rank] == r + 1 by {
        RankValues();
      }
      var value := CardValues[rank];
      for s := 0 to |Suits|
        invariant deck == StandardDeck()[..4 * r + s]
      {
        CardAt(r, s);
        assert StandardDeck()[..4 * r + s + 1] == StandardDeck()[..4 * r + s] + [StandardDeck()[4 * r + s]];
        deck := deck + [Card(rank, value, Suits[s])];
      }
    }
  }

  /** Each (rank, suit) pair is the card at `4 * rank + suit`, and every card's value is `CARD_VALUES` of its rank. */
  lemma DeckLayout()
    ensures forall r, s :: 0 <= r < 13 && 0 <= s < 4 ==> StandardDeck()[4 * r + s] == Card(Ranks[r], r + 1, Suits[s])
    ensures forall i :: 0 <= i < 52 ==> StandardDeck()[i].rank in CardValues && CardValues[StandardDeck()[i].rank] == StandardDeck()[i].value
  {
    forall r, s | 0 <= r < 13 && 0 <= s < 4
      ensures StandardDeck()[4 * r + s] == Card(Ranks[r], r + 1, Suits[s])
    {
      CardAt(r, s);
    }
    RankValues();
    forall i | 0 <= i < 52
      ensures StandardDeck()[i].rank in CardValues && CardValues[StandardDeck()[i].rank] == StandardDeck()[i].value
    {
      CardAt(i / 4, i % 4);
      assert i == 4 * (i / 4) + i % 4;
    }
  }

  /** No card appears twice: two positions differ in rank (so in value) or in suit. */
  lemma DeckDistinct()
    ensures Distinct(StandardDeck())
  {
    var d := StandardDeck();
    assert Suits[0] != Suits[1] && Suits[0] != Suits[2] && Suits[0] != Suits[3];
    assert Suits[1] != Suits[2] && Suits[1] != Suits[3] && Suits[2] != Suits[3];
    forall i, j | 0 <= i < j < 52
      ensures d[i] != d[j]
    {
      assert d[i].value == i / 4 + 1 && d[j].value == j / 4 + 1;
      if i / 4 == j / 4 {
        assert i % 4 != j % 4;
        assert d[i].suit == Suits[i % 4] && d[j].suit == Suits[j % 4];
      }
    }
  }

  /** The values of a list of cards, in order. */
  function Values(cards: seq<Card>): (values: seq<int>)
    ensures |values| == |cards| && forall k :: 0 <= k < |cards| ==> values[k] == cards[k].value
  {
    seq(|cards|, k requires 0 <= k < |cards| => cards[k].value)
  }

  /** The four cards of rank `r` are all worth `r + 1`. */
  lemma RowValues(r: nat)
    requires r < 13
    ensures Values(StandardDeck()[4 * r..4 * r + 4]) == [r + 1, r + 1, r + 1, r + 1]
  {
    var row := StandardDeck()[4 * r..4 * r + 4];
    forall k | 0 <= k < 4
      ensures row[k].value == r + 1
    {
      assert (4 * r + k) / 4 == r;
    }
  }

  /** The first `r` ranks of the deck hold four cards of each value 1..r and nothing else. */
  lemma {:induction false} ValueCountsUpTo(r: nat)
    requires r <= 13
    ensures forall v :: multiset(Values(StandardDeck()[..4 * r]))[v] == if 1 <= v <= r then 4 else 0
  {
    if r > 0 {
      var d := StandardDeck();
      var before := Values(d[..4 * (r - 1)]);
      assert Values(d[..4 * r]) == before + [r, r, r, r] by {
        RowValues(r - 1);
        assert d[..4 * r] == d[..4 * (r - 1)] + d[4 * (r - 1)..4 * r];
        assert Values(d[..4 * r]) == Values(d[..4 * (r - 1)]) + Values(d[4 * (r - 1)..4 * r]);
      }
      ValueCountsUpTo(r - 1);
      AppendFour(before, r);
    }
  }

  /** Four more cards of the next value extend "four of each value 1..r-1" to "four of each value 1..r". */
  lemma AppendFour(before: seq<int>, r: int)
    requires r >= 1
    requires forall v :: multiset(before)[v] == if 1 <= v <= r - 1 then 4 else 0
    ensures forall v :: multiset(before + [r, r, r, r])[v] == if 1 <= v <= r then 4 else 0
  {
    forall v
      ensures multiset(before + [r, r, r, r])[v] == if 1 <= v <= r then 4 else 0
    {
      assert multiset(before + [r, r, r, r])[v] == multiset(before)[v] + multiset([r, r, r, r])[v];
      assert multiset([r, r, r, r]) == multiset{r, r, r, r};
    }
  }

  /** Each value 1..13 occurs on exactly four cards of the deck, and no other value occurs. */
  lemma ValueCounts()
    ensures forall v :: multiset(Values(StandardDeck()))[v] == if 1 <= v <= 13 then 4 else 0
  {
    ValueCountsUpTo(13);
    assert StandardDeck()[..52] == StandardDeck();
  }

  /** `calculate_hand_sum`: the sum of the cards' values; for three cards, the three values added. */
  function HandSum(hand: seq<Card>): (sum: int)
    ensures |hand| == 3 ==> sum == hand[0].value + hand[1].value + hand[2].value
  {
    var values := Values(hand);
    SumOfThree(values);
    Sum(values)
  }

  /** A hand of cards worth 1..13 each sums to between `|hand|` and `13 * |hand|`. */
  lemma HandSumBounds(hand: seq<Card>)
    requires forall k :: 0 <= k < |hand| ==> 1 <= hand[k].value <= 13
    ensures |hand| <= HandSum(hand) <= 13 * |hand|
  {
    SumBounds(Values(hand), 1, 13);
  }

  /** `format_card`: `"<rank> of <suit>"`. */
  function FormatCard(card: Card): string {
    card.rank + " of " + card.suit
  }

  /** Card `4 * r + s` of the deck reads as the `r`-th rank, " of ", the `s`-th suit. */
  lemma FormatDeckCard(r: nat, s: nat)
    requires r < 13 && s < 4
    ensures FormatCard(StandardDeck()[4 * r + s]) == Ranks[r] + " of " + Suits[s]
  {
    CardAt(r, s);
  }

  /** A rank without a space ends where the first space of its display string is. */
  lemma FirstSpace(c: Card)
    requires forall k :: 0 <= k < |c.rank| ==> c.rank[k] != ' '
    ensures |c.rank| < |FormatCard(c)| && FormatCard(c)[|c.rank|] == ' '
    ensures forall k :: 0 <= k < |c.rank| ==> FormatCard(c)[k] != ' '
  {
  }

  /** Cards whose ranks hold no space and that differ in rank or suit are displayed differently. */
  lemma FormatCardParts(a: Card, b: Card)
    requires forall k :: 0 <= k < |a.rank| ==> a.rank[k] != ' '
    requires forall k :: 0 <= k < |b.rank| ==> b.rank[k] != ' '
    ensures a.rank != b.rank || a.suit != b.suit ==> FormatCard(a) != FormatCard(b)
  {
    var x, y := FormatCard(a), FormatCard(b);
    if x == y {
      FirstSpace(a);
      FirstSpace(b);
      assert |a.rank| == |b.rank|;
      assert a.rank == x[..|a.rank|] && b.rank == y[..|b.rank|];
      assert a.suit == x[|a.rank| + 4..] && b.suit == y[|b.rank| + 4..];
    }
  }

  /** No rank name holds a space. */
  lemma RanksHaveNoSpace()
    ensures forall r, k :: 0 <= r < 13 && 0 <= k < |Ranks[r]| ==> Ranks[r][k] != ' '
  {
  }

  /** The 52 cards of a new deck are displayed as 52 different strings. */
  lemma DeckNamesDistinct()
    ensures forall i, j :: 0 <= i < j < 52 ==> FormatCard(StandardDeck()[i]) != FormatCard(StandardDeck()[j])
  {
    var d := StandardDeck();
    RankValues();
    RanksHaveNoSpace();
    assert Suits[0] != Suits[1] && Suits[0] != Suits[2] && Suits[0] != Suits[3];
    assert Suits[1] != Suits[2] && Suits[1] != Suits[3] && Suits[2] != Suits[3];
    forall i, j | 0 <= i < j < 52
      ensures FormatCard(d[i]) != FormatCard(d[j])
    {
      assert d[i] == Card(Ranks[i / 4], i / 4 + 1, Suits[i % 4]) && d[j] == Card(Ranks[j / 4], j / 4 + 1, Suits[j % 4]);
      assert CardValues[d[i].rank] == i / 4 + 1 && CardValues[d[j].rank] == j / 4 + 1;
      assert d[i].rank != d[j].rank || d[i].suit != d[j].suit;
      FormatCardParts(d[i], d[j]);
    }
  }

  /** `[deck.pop() for _ in range(n)]`: the last `n` cards, last card first, and the deck without them. */
  method PopCards(deck: seq<Card>, n: nat) returns (hand: seq<Card>, rest: seq<Card>)
    requires n <= |deck|
    ensures rest == deck[..|deck| - n]
    ensures |hand| == n && forall k :: 0 <= k < n ==> hand[k] == deck[|deck| - 1 - k]
  {
    hand := [];
    rest := deck;
    for k := 0 to n
      invariant rest == deck[..|deck| - k]
      invariant |hand| == k && forall j :: 0 <= j < k ==> hand[j] == deck[|deck| - 1 - j]
    {
      hand := hand + [rest[|rest| - 1]];
      rest := rest[..|rest| - 1];
    }
  }

  /**
   * The deal of `play_game`: three pops for the player, then three for the
   * opponent, so the player holds the last three cards (last first) and the
   * opponent the three before them.
   */
  method Deal(deck: seq<Card>) returns (playerHand: seq<Card>, opponentHand: seq<Card>, rest: seq<Card>)
    requires |deck| >= 6
    ensures |playerHand| == 3 && |opponentHand| == 3 && rest == deck[..|deck| - 6]
    ensures forall k :: 0 <= k < 3 ==> playerHand[k] == deck[|deck| - 1 - k] && opponentHand[k] == deck[|deck| - 4 - k]
  {
    var afterPlayer;
    playerHand, afterPlayer := PopCards(deck, 3);
    opponentHand, rest := PopCards(afterPlayer, 3);
  }

  /** A shuffled deck still holds 52 distinct cards, each worth 1..13. */
  lemma ShuffledDeck(picks: seq<nat>)
    requires ValidPicks(picks, 52)
    ensures var d := Shuffled(StandardDeck(), picks);
            && |d| == 52 && Distinct(d)
            && forall i :: 0 <= i < 52 ==> 1 <= d[i].value <= 13
  {
    var d := Shuffled(StandardDeck(), picks);
    DeckDistinct();
    ShuffleKeepsDistinct(StandardDeck(), picks, 52);
    ShufflePermutes(StandardDeck(), picks, 52);
    forall i | 0 <= i < 52
      ensures 1 <= d[i].value <= 13
    {
      assert d[i] in multiset(StandardDeck());
      var j :| 0 <= j < 52 && StandardDeck()[j] == d[i];
      assert StandardDeck()[j].value == j / 4 + 1;
    }
  }

  /** Two hands dealt from different positions of a deck of distinct cards share no card; each sums to 3..39. */
  lemma DealtHands(d: seq<Card>, playerHand: seq<Card>, opponentHand: seq<Card>)
    requires |d| == 52 && Distinct(d) && forall i :: 0 <= i < 52 ==> 1 <= d[i].value <= 13
    requires |playerHand| == 3 && |opponentHand| == 3
    requires forall k :: 0 <= k < 3 ==> playerHand[k] == d[|d| - 1 - k] && opponentHand[k] == d[|d| - 4 - k]
    ensures forall a, b :: a in playerHand && b in opponentHand ==> a != b
    ensures 3 <= HandSum(playerHand) <= 39 && 3 <= HandSum(opponentHand) <= 39
  {
    HandSumBounds(playerHand);
    HandSumBounds(opponentHand);
  }

  /** The first two lines of `play_game`: a new deck, shuffled in place. */
  method ShuffledNewDeck(picks: seq<nat>) returns (deck: seq<Card>)
    requires ValidPicks(picks, 52)
    ensures deck == Shuffled(StandardDeck(), picks)
  {
    var ordered := CreateDeck();
    var cards := new Card[|ordered|](k requires 0 <= k < |ordered| => ordered[k]);
    assert cards[..] == ordered;
    Shuffle(cards, picks);
    deck := cards[..];
  }

  /** One finished game: both hands, both sums, who won, and the 46 cards left. */
  datatype Round = Round(playerHand: seq<Card>, playerSum: int, opponentHand: seq<Card>, opponentSum: int, outcome: Outcome, remaining: seq<Card>)

  /**
   * `play_game`: shuffle a new deck, deal three cards to the player and three
   * to the opponent, and compare the sums.
   */
  method PlayGame(picks: seq<nat>) returns (round: Round)
    requires ValidPicks(picks, 52)
    ensures var d := Shuffled(StandardDeck(), picks);
            && |round.playerHand| == 3 && |round.opponentHand| == 3
            && (forall k :: 0 <= k < 3 ==> round.playerHand[k] == d[51 - k] && round.opponentHand[k] == d[48 - k])
            && round.remaining == d[..46]
    ensures forall a, b :: a in round.playerHand && b in round.opponentHand ==> a != b
    ensures round.playerSum == HandSum(round.playerHand) && round.opponentSum == HandSum(round.opponentHand)
    ensures 3 <= round.playerSum <= 39 && 3 <= round.opponentSum <= 39
    ensures round.outcome == Compare(round.playerSum, round.opponentSum)
  {
    var deck := ShuffledNewDeck(picks);
    assert |deck| == 52;
    var playerHand, opponentHand, rest := Deal(deck);
    forall k | 0 <= k < 3
      ensures playerHand[k] == deck[51 - k] && opponentHand[k] == deck[48 - k]
    {
      assert |deck| - 1 - k == 51 - k && |deck| - 4 - k == 48 - k;
    }
    assert (forall a, b :: a in playerHand && b in opponentHand ==> a != b)
           && 3 <= HandSum(playerHand) <= 39 && 3 <= HandSum(opponentHand) <= 39 by {
      ShuffledDeck(picks);
      DealtHands(deck, playerHand, opponentHand);
    }
    var playerSum, opponentSum := HandSum(playerHand), HandSum(opponentHand);
    return Round(playerHand, playerSum, opponentHand, opponentSum, Compare(playerSum, opponentSum), rest);
  }
}

=== FILE: text.dfy ===
/**
 * The parts of Python's `str` behaviour the agent relies on: whitespace as
 * `str.isspace` (and the `\s` class of `re` on `str`) sees it, substring
 * search, `strip`, `join`, `str(int)`, `repr` of a string and
 * `posixpath.join`.
 */
module Text {
  import opened Wrappers

  /** Python's `str.isspace`, which is also what `\s` matches in a `str` pattern. */
  predicate IsSpace(c: char) {
    || c == ' '
    || ('\t' <= c <= '\r')
    || ('\U{1C}' <= c <= '\U{1F}')
    || c == '\U{85}' || c == '\U{A0}' || c == '\U{1680}'
    || ('\U{2000}' <= c <= '\U{200A}')
    || c == '\U{2028}' || c == '\U{2029}' || c == '\U{202F}' || c == '\U{205F}' || c == '\U{3000}'
  }

  /** `pat` occurs in `s` starting at index `i`. */
  predicate OccursAt(s: string, pat: string, i: int) {
    0 <= i && i + |pat| <= |s| && s[i..i + |pat|] == pat
  }

  /** `s.find(pat, from)`: the first occurrence of `pat` at or after `from`. */
  function IndexFrom(s: string, pat: string, from: nat): (r: Option<nat>)
    ensures r.Some? ==> from <= r.value && OccursAt(s, pat, r.value)
    ensures forall k :: from <= k && (r.None? || k < r.value) ==> !OccursAt(s, pat, k)
    decreases |s| - from
  {
    if from + |pat| > |s| then None
    else if s[from..from + |pat|] == pat then Some(from)
    else IndexFrom(s, pat, from + 1)
  }

  /** The first occurrence of `pat` at or after `from` is the one `find` reports. */
  lemma IndexFromFirst(s: string, pat: string, from: nat, i: nat)
    requires from <= i && OccursAt(s, pat, i)
    requires forall k :: from <= k < i ==> !OccursAt(s, pat, k)
    ensures IndexFrom(s, pat, from) == Some(i)
  {
  }

  /** `pat in s`. */
  predicate Contains(s: string, pat: string)
    ensures Contains(s, pat) <==> exists k :: OccursAt(s, pat, k)
  {
    IndexFrom(s, pat, 0).Some?
  }

  /** `s.find(c)` for one character. */
  function FirstIndexOf(s: string, c: char): (r: Option<nat>)
    ensures r.Some? ==> r.value < |s| && s[r.value] == c
    ensures forall k :: 0 <= k < |s| && (r.None? || k < r.value) ==> s[k] != c
  {
    if |s| == 0 then None
    else if s[0] == c then Some(0)
    else match FirstIndexOf(s[1..], c)
      case None => None
      case Some(k) => Some(k + 1)
  }

  /** `s.rfind(c)` for one character. */
  function LastIndexOf(s: string, c: char): (r: Option<nat>)
    ensures r.Some? ==> r.value < |s| && s[r.value] == c
    ensures forall k :: 0 <= k < |s| && (r.None? || r.value < k) ==> s[k] != c
  {
    if |s| == 0 then None
    else if s[|s| - 1] == c then Some(|s| - 1)
    else LastIndexOf(s[..|s| - 1], c)
  }

  /** `s.lstrip()`: the suffix left after dropping every leading whitespace character. */
  function TrimStart(s: string): (r: string)
    ensures |r| <= |s| && r == s[|s| - |r|..]
    ensures forall k :: 0 <= k < |s| - |r| ==> IsSpace(s[k])
    ensures r == [] || !IsSpace(r[0])
  {
    if |s| > 0 && IsSpace(s[0]) then TrimStart(s[1..]) else s
  }

  /** `s.rstrip()`: the prefix left after dropping every trailing whitespace character. */
  function TrimEnd(s: string): (r: string)
    ensures |r| <= |s| && r == s[..|r|]
    ensures forall k :: |r| <= k < |s| ==> IsSpace(s[k])
    ensures r == [] || !IsSpace(r[|r| - 1])
  {
    if |s| > 0 && IsSpace(s[|s| - 1]) then TrimEnd(s[..|s| - 1]) else s
  }

  /** `s.strip()`. */
  function Strip(s: string): (r: string)
    ensures |r| <= |s|
    ensures r == [] || (!IsSpace(r[0]) && !IsSpace(r[|r| - 1]))
  {
    TrimEnd(TrimStart(s))
  }

  /** `sep.join(parts)`. */
  function Join(sep: string, parts: seq<string>): string {
    if |parts| == 0 then ""
    else if |parts| == 1 then parts[0]
    else parts[0] + sep + Join(sep, parts[1..])
  }

  function DigitChar(d: nat): (c: char)
    requires d < 10
    ensures '0' <= c <= '9'
  {
    ['0', '1', '2', '3', '4', '5', '6', '7', '8', '9'][d]
  }

  /** Decimal digits of `n`, most significant first, no leading zero. */
  function NatToString(n: nat): (r: string)
    ensures |r| > 0 && forall k :: 0 <= k < |r| ==> '0' <= r[k] <= '9'
    ensures r[0] == '0' ==> n == 0
  {
    if n < 10 then [DigitChar(n)] else NatToString(n / 10) + [DigitChar(n % 10)]
  }

  /** `str(i)` for a Python `int`. */
  function IntToString(i: int): string {
    if i < 0 then "-" + NatToString(-i) else NatToString(i)
  }

  function HexDigit(d: nat): (c: char)
    requires d < 16
  {
    "0123456789abcdef"[d]
  }

  /**
   * The characters up to U+00FF that `repr` does not print as they are: the
   * C0 controls, DEL, the C1 controls, the no-break space and the soft hyphen.
   */
  predicate HiddenLatin1(c: char) {
    c < ' ' || ('\U{7F}' <= c <= '\U{A0}') || c == '\U{AD}'
  }

  /** The escapes `repr` writes for a character inside a literal quoted by `quote`. */
  function EscapeChar(c: char, quote: char): string {
    if c == '\\' then "\\\\"
    else if c == quote then ['\\', quote]
    else if c == '\n' then "\\n"
    else if c == '\r' then "\\r"
    else if c == '\t' then "\\t"
    else if HiddenLatin1(c) then "\\x" + [HexDigit(c as int / 16), HexDigit(c as int % 16)]
    else [c]
  }

  function Escape(s: string, quote: char): string {
    if |s| == 0 then "" else EscapeChar(s[0], quote) + Escape(s[1..], quote)
  }

  /** Escaping works character by character, so it distributes over concatenation. */
  lemma {:induction false} EscapeAppend(a: string, b: string, quote: char)
    ensures Escape(a + b, quote) == Escape(a, quote) + Escape(b, quote)
    decreases |a|
  {
    if |a| > 0 {
      assert (a + b)[0] == a[0];
      assert (a + b)[1..] == a[1..] + b;
      EscapeAppend(a[1..], b, quote);
    } else {
      assert a + b == b;
    }
  }

  /** The value of a lower-case hex digit. */
  function HexValue(c: char): nat {
    if '0' <= c <= '9' then c as int - '0' as int
    else if 'a' <= c <= 'f' then c as int - 'a' as int + 10
    else 0
  }

  /**
   * How Python reads back the body of a string literal, for the escapes
   * `repr` writes: `\\`, `\'`, `\"`, `\n`, `\r`, `\t` and `\xNN`.
   */
  function Unescape(e: string): string
    decreases |e|
  {
    if |e| == 0 then ""
    else if e[0] == '\\' && |e| >= 2 then
      if e[1] == 'n' then "\n" + Unescape(e[2..])
      else if e[1] == 'r' then "\r" + Unescape(e[2..])
      else if e[1] == 't' then "\t" + Unescape(e[2..])
      else if e[1] == 'x' && |e| >= 4 then [(16 * HexValue(e[2]) + HexValue(e[3])) as char] + Unescape(e[4..])
      else [e[1]] + Unescape(e[2..])
    else [e[0]] + Unescape(e[1..])
  }

  /** A backslash and a letter other than `x` read back as one character. */
  lemma UnescapePair(x: char, rest: string)
    requires x != 'x'
    ensures Unescape(['\\', x] + rest)
            == [if x == 'n' then '\n' else if x == 'r' then '\r' else if x == 't' then '\t' else x] + Unescape(rest)
  {
    assert (['\\', x] + rest)[2..] == rest;
  }

  /** `\xNN` reads back as the character with code NN. */
  lemma UnescapeHex(c: char, rest: string)
    requires c as int < 256
    ensures Unescape(['\\', 'x', HexDigit(c as int / 16), HexDigit(c as int % 16)] + rest) == [c] + Unescape(rest)
  {
    var hi, lo := c as int / 16, c as int % 16;
    assert HexValue(HexDigit(hi)) == hi;
    assert HexValue(HexDigit(lo)) == lo;
    assert (['\\', 'x', HexDigit(hi), HexDigit(lo)] + rest)[4..] == rest;
  }

  /** Reading back the escape of one character gives that character. */
  lemma UnescapeChar(c: char, quote: char, rest: string)
    requires quote == '\'' || quote == '"'
    ensures Unescape(EscapeChar(c, quote) + rest) == [c] + Unescape(rest)
  {
    if c == '\\' {
      UnescapePair('\\', rest);
    } else if c == quote {
      UnescapePair(quote, rest);
    } else if c == '\n' {
      UnescapePair('n', rest);
    } else if c == '\r' {
      UnescapePair('r', rest);
    } else if c == '\t' {
      UnescapePair('t', rest);
    } else if HiddenLatin1(c) {
      UnescapeHex(c, rest);
    } else {
      assert ([c] + rest)[1..] == rest;
    }
  }

  /** Reading back an escaped string gives the string: `eval(repr(s)) == s`. */
  lemma {:induction false} UnescapeEscape(s: string, quote: char)
    requires quote == '\'' || quote == '"'
    ensures Unescape(Escape(s, quote)) == s
    decreases |s|
  {
    if |s| > 0 {
      var rest := Escape(s[1..], quote);
      assert Escape(s, quote) == EscapeChar(s[0], quote) + rest;
      UnescapeChar(s[0], quote, rest);
      UnescapeEscape(s[1..], quote);
      assert s == [s[0]] + s[1..];
    }
  }

  /**
   * `repr(s)`: single quotes unless `s` holds a single quote and no double
   * quote; backslash, the quote, newline, carriage return and tab escaped,
   * other hidden characters below U+0100 written as `\xNN`.
   */
  function Repr(s: string): (r: string)
    ensures |r| >= 2 && r[0] == r[|r| - 1] && (r[0] == '\'' || r[0] == '"')
    ensures (r[0] == '"') == (Contains(s, "'") && !Contains(s, "\""))
    ensures r[1..|r| - 1] == Escape(s, r[0])
    ensures Unescape(r[1..|r| - 1]) == s
  {
    var quote := if Contains(s, "'") && !Contains(s, "\"") then '"' else '\'';
    var body := Escape(s, quote);
    UnescapeEscape(s, quote);
    assert ([quote] + body + [quote])[1..|body| + 1] == body;
    [quote] + body + [quote]
  }

  /** A character `repr` copies as it is inside single quotes. */
  predicate Plain(c: char) {
    c != '\\' && c != '\'' && c != '\n' && c != '\r' && c != '\t' && !HiddenLatin1(c)
  }

  lemma {:induction false} EscapePlain(s: string)
    requires forall k :: 0 <= k < |s| ==> Plain(s[k])
    ensures Escape(s, '\'') == s
  {
    if |s| > 0 {
      EscapePlain(s[1..]);
    }
  }

  /** A string of plain characters is shown between single quotes, unchanged. */
  lemma ReprPlain(s: string)
    requires forall k :: 0 <= k < |s| ==> Plain(s[k])
    ensures Repr(s) == "'" + s + "'"
  {
    assert !Contains(s, "'") by {
      forall k | 0 <= k < |s|
        ensures !OccursAt(s, "'", k)
      {
        assert s[k..k + 1][0] == s[k];
      }
    }
    EscapePlain(s);
  }

  /** A hidden character below U+0100 is shown as `\x` and two lower-case hex digits. */
  lemma ReprHidden(c: char)
    requires HiddenLatin1(c) && c != '\t' && c != '\n' && c != '\r'
    ensures Repr([c]) == "'\\x" + [HexDigit(c as int / 16), HexDigit(c as int % 16)] + "'"
  {
    assert !Contains([c], "'") by {
      assert !OccursAt([c], "'", 0) by {
        assert [c][0..1][0] == c;
      }
    }
    assert Escape([c], '\'') == EscapeChar(c, '\'') + Escape([], '\'');
  }

  /** `posixpath.join(a, b)`. */
  function PathJoin(a: string, b: string): (r: string)
    ensures |b| > 0 && b[0] == '/' ==> r == b
    ensures (|b| == 0 || b[0] != '/') && |a| > 0 && a[|a| - 1] != '/' ==> r == a + "/" + b
    ensures (|b| == 0 || b[0] != '/') && (|a| == 0 || a[|a| - 1] == '/') ==> r == a + b
  {
    if |b| > 0 && b[0] == '/' then b
    else if |a| == 0 || a[|a| - 1] == '/' then a + b
    else a + "/" + b
  }

  /** The slice `s[:n]`: the first `n` elements, or all of `s` when it is shorter. */
  function Prefix<T>(s: seq<T>, n: nat): (r: seq<T>)
    ensures |r| == if |s| <= n then |s| else n
    ensures r <= s
  {
    if |s| <= n then s else s[..n]
  }
}

=== FILE: wrappers.dfy ===
/** Failure-compatible wrappers used for Python's `None` defaults and raised errors. */
module Wrappers {

  datatype Option<+T> = None | Some(value: T) {
    /** `value if present else default`, as `dict.get(key, default)` reads it. */
    function GetOr(default: T): T {
      match this
      case Some(v) => v
      case None => default
    }
  }

  datatype Result<+R, +E> = Ok(value: R) | Err(error: E)
}
